=== FILE: README.md ===
# naturalsort, modelled in Dafny

This project models the core of `naturalsort`, a Go tool that sorts strings
"naturally": `z2` before `z11`, `1` before `001`, `1.001` before `1.002`.
The model has two parts.

- **The comparator and the sort** (package `natural`).
  - `compare(a, b)` walks two strings segment by segment:
    - non-digit prefixes decide by string order;
    - digit runs decide by numeric value, then by run length (the shorter run first);
    - a string that runs out of digit runs comes after one that still has one.
  - `Sort` calls `sort.Sort` with `compare` as its `Less`.
- **The `sort` command** (`cmd/natural/sort.go`).
  - It checks the separator.
  - It splits its input into tokens with a `bufio.Scanner` and a custom split function.
  - It trims trailing newlines off the last token.
  - It sorts the tokens and joins them again with the separator.

Modules, in dependency order:

| module | file | contents |
|---|---|---|
| `Strings` | strings.dfy | `strings.IndexFunc`, the first-occurrence loop of `splitOn`'s split function (what `bytes.IndexByte` computes), Go's string `<`, `strings.Join`, `strings.TrimRightFunc` |
| `Digits` | digits.dfy | `indexOfNumber`, `indexOfNonNumber`, `not`, `coerceToInt` |
| `Segments` | segments.dfy | a reference reading of a string as prefix / digit run / … / tail, and the natural order defined on that reading |
| `Natural` | natural.dfy | `compare` (as a recursion and as the source's loop), its order laws, the rules it applies, and `Sort` |
| `NaturalTable` | natural_table.dfy | every row of the `TestSort` table, proved for any sorted permutation |
| `SortCommand` | command.dfy | separator check, split function, scanner, trim, the `naturalSort` pipeline |

Modelling choices:

- The comparator is proved to be a strict total order.
  - The proof goes through an independent reference: the order on segmentations.
  - As a result, any correct sort produces the same output. The model uses insertion sort and proves its output is the unique sorted permutation.
- In `Natural`, a string is a sequence of code points.
  - Go compares strings byte by byte.
  - For valid UTF-8 this is the same order as code point by code point.
- In `SortCommand`, a `char` stands for one byte, so the scanner works on byte strings.
- I/O is a parameter. The reads the scanner makes arrive as a sequence of chunks, `chunks`.

Digits are ASCII only, an abstraction of the source:

- The source classifies digits with `unicode.IsDigit` (pkg/natural/natural.go:92), which accepts every Unicode decimal digit.
- It then parses each run with `strconv.Atoi`, which accepts ASCII digits only.
- A run holding another Unicode digit makes `coerceToInt` panic, but only once the walk reaches it.
- Before that, such a digit already changes which branch of `compare` decides. The model treats it as a non-digit, so it can give a different answer.
  - Take `compare("a٣", "a")`, with ARABIC-INDIC DIGIT THREE (U+0663). The source returns true at natural.go:54-55, because only the first string holds a digit; the model's `Compare` is false.
  - Likewise, the source's `compare("a٣", "b1")` is true at natural.go:59-60, by prefix; the model's is false.
- Over strings whose digits are all ASCII and whose digit runs fit in 64 bits (see `CoerceToInt` under Left out), the model and the source agree.

## Model

| member | source | states |
|---|---|---|
| Strings.IndexFunc | pkg/natural/natural.go:91-99 | the result is -1 exactly when no character satisfies the predicate; otherwise it is the first position that does |
| Strings.IndexByte | cmd/natural/sort.go:218-222 | the split function's own first-occurrence loop, which computes what `bytes.IndexByte` would: the result is -1 exactly when the byte is absent; otherwise it is the first occurrence of the byte |
| Strings.Less | pkg/natural/natural.go:51-60 | Go's string `<`, used at lines 51 and 60; it has no contract of its own, and `LessIsFirstDifference` carries its meaning: a proper prefix first, otherwise the first differing character decides |
| Strings.LessIsFirstDifference | pkg/natural/natural.go:50-61 | Go's string `<` is the textbook lexicographic order: a proper prefix first, otherwise the first differing character decides |
| Strings.LessIrreflexive | pkg/natural/natural.go:51 | no string is `<` itself |
| Strings.LessAsymmetric | pkg/natural/natural.go:51 | `x < y` excludes `y < x` |
| Strings.LessTransitive | pkg/natural/natural.go:51 | `<` on strings is transitive |
| Strings.LessTotal | pkg/natural/natural.go:51 | distinct strings are ordered one way or the other |
| Strings.TrimRightFunc | cmd/natural/sort.go:196-198 | the result is a prefix of the input; every removed character satisfies the predicate; the kept last character does not |
| Strings.Join | cmd/natural/sort.go:97-99 | `strings.Join`; it has no contract of its own, and `SortCommand.SplitAll` (joining the tokens gives the input back) and `SortCommand.SplitAllJoin` (splitting undoes joining when no element holds the separator) carry its meaning |
| Digits.IsDigit | pkg/natural/natural.go:92 | `unicode.IsDigit` restricted to ASCII, `0` to `9` (see `IsDigit` under Left out); `IndexOfNumber`, `IndexOfNonNumber` and `DigitRunEnd` state what the source does with it |
| Digits.Not | pkg/natural/natural.go:111-115 | the returned predicate is the complement of its argument at every character |
| Digits.IndexOfNumber | pkg/natural/natural.go:91-93 | -1 exactly when the string has no digit; otherwise the first digit, with no digit before it |
| Digits.IndexOfNonNumber | pkg/natural/natural.go:95-99 | -1 exactly when the string is all digits; otherwise the first non-digit, with only digits before it |
| Digits.DigitRunEnd | pkg/natural/natural.go:65-71 | the end of the leading digit run is a non-empty all-digit prefix, followed by the end of the string or a non-digit |
| Digits.CoerceToInt | pkg/natural/natural.go:103-109 | the value of a digit run of length k is below 10^k |
| Digits.AllZerosValue | pkg/natural/natural.go:103-109 | a run of zeros, of any length, reads as 0 |
| Digits.CoerceToIntLeadingZeros | pkg/natural/natural.go:103-109 | leading zeros do not change the value of a run: zeros followed by a run `d` is a run with the value of `d` |
| Digits.CoerceToIntInjective | pkg/natural/natural.go:80-84 | two runs with equal value and equal length are the same run, so value and length together tell any two runs apart |
| Segments.Parse | pkg/natural/natural.go:44-46 | the greedy segmentation of a string is well formed and spells the string again |
| Segments.ParseFlatten | pkg/natural/natural.go:44-46 | every well-formed segmentation is the one `Parse` finds for the string it spells, so the segmentation is unique |
| Segments.ParseRun | pkg/natural/natural.go:59-71 | a digit-free prefix followed by a digit run that nothing continues is the first segment |
| Segments.ParseInjective | pkg/natural/natural.go:44-46 | different strings have different segmentations |
| Segments.SegLessAsymmetric | pkg/natural/natural.go:47-88 | the reference order on segmentations is asymmetric |
| Segments.SegLessIrreflexive | pkg/natural/natural.go:47-88 | the reference order on segmentations is irreflexive |
| Segments.SegLessTransitive | pkg/natural/natural.go:47-88 | the reference order on segmentations is transitive |
| Segments.SegLessTotal | pkg/natural/natural.go:47-88 | two different well-formed segmentations are ordered one way or the other |
| Natural.Compare | pkg/natural/natural.go:32-39 | the empty string precedes exactly the non-empty strings and follows none |
| Natural.CompareLoop | pkg/natural/natural.go:32-89 | the source's loop, with its suffix updates and early returns, computes the same answer as the recursive model `Compare` |
| Natural.Walk | pkg/natural/natural.go:47-88 | the loop of `compare` on two non-empty suffixes, branch for branch; it has no contract of its own, and `WalkIsSegLess` carries its meaning: it decides exactly as the reference order on the suffixes' segmentations |
| Natural.WalkIsSegLess | pkg/natural/natural.go:47-88 | the loop over two suffixes decides exactly as the reference order on their segmentations |
| Natural.WalkAtRunsIsSegLess | pkg/natural/natural.go:58-87 | when both suffixes hold a digit run, each early return of the loop body, and its continuation, matches the corresponding case of the reference order |
| Natural.CompareIsNaturalLess | pkg/natural/natural.go:32-89 | `compare` holds exactly when the strings are in the reference natural order: empty first, then segmentations in order |
| Natural.CompareIrreflexive | pkg/natural/natural.go:28-30 | no string precedes itself |
| Natural.CompareAsymmetric | pkg/natural/natural.go:28-30 | `compare(a, b)` excludes `compare(b, a)` |
| Natural.CompareTransitive | pkg/natural/natural.go:28-30 | `compare` is transitive, as `sort.Sort` requires of `Less` |
| Natural.CompareTotal | pkg/natural/natural.go:80-84 | distinct strings are never tied: `1` and `001` included |
| Natural.CompareIsStrictTotalOrder | pkg/natural/natural.go:28-30 | the four laws, quantified over all strings |
| Natural.NoDigitsIsStringOrder | pkg/natural/natural.go:50-51 | with no digit on either side, `compare` is Go's string `<` |
| Natural.OtherDigitsAreNotDigits | pkg/natural/natural.go:91-93 | the model reads ARABIC-INDIC DIGIT THREE as a non-digit, so `a٣` follows `a`; the source's `unicode.IsDigit` reads it as a digit and puts `a٣` first |
| Natural.DigitsBeforeNoDigits | pkg/natural/natural.go:52-56 | a non-empty string with a digit precedes a non-empty string without one, and not the reverse |
| Natural.PrefixDecides | pkg/natural/natural.go:59-61 | different digit-free prefixes before the first runs decide by string order, whatever follows them |
| Natural.WalkAtRun | pkg/natural/natural.go:63-87 | after a shared prefix, the loop at two digit runs agrees with the reference order at those runs |
| Natural.SegLessAtRun | pkg/natural/natural.go:73-87 | in the reference order, runs after a shared prefix decide by value, then by length, then by what follows |
| Natural.RunDecides | pkg/natural/natural.go:73-87 | after a shared prefix: different values decide by value; equal values of different lengths decide by length, the shorter first; identical runs pass the decision on to the rest |
| Natural.WalkRunAfterPrefix | pkg/natural/natural.go:73-84 | two final runs after a shared prefix: the first precedes exactly when its value is smaller, or the values are equal and its run is shorter |
| Natural.RunAfterPrefix | pkg/natural/natural.go:73-84 | the same rule for `compare` on whole strings |
| Natural.PaddedRunFollows | pkg/natural/natural.go:76-84 | after a common prefix, a run padded with leading zeros follows its plain form, and never precedes it, whatever follows either: `1` before `001`, `0` before `00` |
| Natural.SameLeadingRun | pkg/natural/natural.go:86-87 | strings that open with the same digit run compare as their remainders |
| Natural.SortedHeadsEqual | pkg/natural/natural.go:14-16 | two sorted arrangements of one multiset start with the same element |
| Natural.SortedUnique | pkg/natural/natural.go:14-16 | two sorted arrangements of one multiset are equal, so the sort's output is fixed by its input |
| Natural.ChainOrdered | pkg/natural/natural.go:28-30 | along a chain where no element precedes its neighbour, each element equals or precedes every later one |
| Natural.ChainSorted | pkg/natural/natural.go:28-30 | a sequence is sorted once no element precedes its neighbour |
| Natural.InsertKeepsSorted | pkg/natural/natural.go:14-16 | inserting an element in front of the first element it precedes keeps a sorted sequence sorted |
| Natural.Sort | pkg/natural/natural.go:14-16 | the output is sorted under `compare` and a permutation of the input; an input already sorted comes back unchanged |
| NaturalTable.ChainIsTheSort | pkg/natural/natural_test.go:78-86 | a permutation of the input whose neighbours are in order is the only sorted result |
| NaturalTable.EmptyRightOrder | pkg/natural/natural_test.go:16-20 | every sorted permutation of `["", "a"]` is `["", "a"]` |
| NaturalTable.EmptyLeftOrder | pkg/natural/natural_test.go:21-25 | every sorted permutation of `["a", ""]` is `["", "a"]` |
| NaturalTable.DifferingLengths | pkg/natural/natural_test.go:26-30 | every sorted permutation of the row's input is `["a", "aac", "ac"]` |
| NaturalTable.SimilarLengths | pkg/natural/natural_test.go:31-35 | every sorted permutation of the row's input is `["aa", "bb", "cc"]` |
| NaturalTable.SimilarDigitLengths | pkg/natural/natural_test.go:36-40 | every sorted permutation of the row's input is `["11", "22", "33"]` |
| NaturalTable.DigitOrder | pkg/natural/natural_test.go:41-45 | every sorted permutation of the row's input is `["a2", "b11"]` |
| NaturalTable.HumanDigitOrder | pkg/natural/natural_test.go:46-50 | every sorted permutation of the row's input is `["z2", "z11"]` |
| NaturalTable.AlphaNumeric | pkg/natural/natural_test.go:51-55 | every sorted permutation of the row's input is the expected order, duplicates `a11` side by side |
| NaturalTable.Numeric | pkg/natural/natural_test.go:56-60 | every sorted permutation of the row's input is `["0", "00", "1", "001", "2", "3", "22", "30"]` |
| NaturalTable.Glyphs | pkg/natural/natural_test.go:61-65 | every sorted permutation of the row's input is `["世20", "世界3"]` |
| NaturalTable.NumericPadding | pkg/natural/natural_test.go:66-70 | every sorted permutation of the row's input is `["1", "001"]` |
| NaturalTable.Decimal | pkg/natural/natural_test.go:71-75 | every sorted permutation of the row's input is `["1.001", "1.002", "1.003"]` |
| SortCommand.ByteOf | cmd/natural/sort.go:219 | `byte(r)` is below 256 and leaves any rune below 256 unchanged |
| SortCommand.DecodeByte | cmd/natural/sort.go:66 | `utf8.DecodeLastRuneInString` on a one-byte string: the rune equals the byte exactly when the byte is ASCII, and is `utf8.RuneError` otherwise |
| SortCommand.SeparatorRune | cmd/natural/sort.go:62-70 | the check as written: the error exactly when the separator is not one byte; the rune handed on equals that byte exactly when the byte is ASCII |
| SortCommand.SeparatorByte | cmd/natural/sort.go:62-70 | the check as intended: the error exactly when the separator is not one byte; otherwise the separator is exactly the byte handed on |
| SortCommand.SplitAsWritten | cmd/natural/sort.go:217-224 | never asks for more data; reports the final token exactly when the data has no separator byte; a token is the data before the first separator, and the step consumes the separator too |
| SortCommand.Split | cmd/natural/sort.go:217-224 | final token exactly when no separator is present and the input has ended; a request for more data exactly when no separator is present before the end; tokens as in the written version |
| SortCommand.SplitAgreesOnCompleteData | cmd/natural/sort.go:217-224 | at the end of the input, or when the data holds a separator, the written and intended split functions agree |
| SortCommand.SplitStableUnderExtension | cmd/natural/sort.go:217-224 | a decision of the intended split function is unchanged by any data that arrives later |
| SortCommand.FinalTokenBeforeEof | cmd/natural/sort.go:223 | the written split function gives the final token `1` on partial data whose continuation `10,` opens with the token `10` |
| SortCommand.SplitAll | cmd/natural/sort.go:182-188 | the tokens of an input: at least one, none holds the separator, and joined with the separator they give the input back |
| SortCommand.SplitAllAt | cmd/natural/sort.go:218-220 | a separator-free token followed by the separator is the first token of the split |
| SortCommand.SplitAllJoin | cmd/natural/sort.go:206 | splitting undoes joining when no element holds the separator |
| SortCommand.Scan | cmd/natural/sort.go:182-188 | `bufio.Scanner` driving the split function: the split function is called only when data is pending or the input has ended; a token is collected and the scan advances past the data it consumed; `ErrFinalToken` stops the scan; a request for more data, or an empty buffer, triggers the next read. It has no contract of its own; `ScanFrom` (intended split: the tokens of the whole input, however it is cut into reads) and `ScanAsWrittenFrom` (written split: the tokens of the buffered data once no reads remain) carry its meaning |
| SortCommand.ScanFrom | cmd/natural/sort.go:182-188 | with the intended split function, the scanner yields the tokens of the whole input, however it is cut into reads |
| SortCommand.ScanIntended | cmd/natural/sort.go:182-188 | the same, from an empty buffer |
| SortCommand.ScanAsWrittenFrom | cmd/natural/sort.go:182-188 | with the written split function and no reads left to come, the scanner yields the tokens of the buffered data |
| SortCommand.ScanAsWrittenOneRead | cmd/natural/sort.go:182-188 | with the written split function, input that arrives in a single read is split correctly |
| SortCommand.ScanAsWrittenDropsInput | cmd/natural/sort.go:182-188 | input arriving as the reads `1` and `0,` yields only `1` with the written split function, and `10` and the empty token with the intended one |
| SortCommand.ScanAsWrittenSeparatorEnded | cmd/natural/sort.go:182-188 | with the written split function, when every read but the last ends with the separator byte (and so does the pending data, if reads follow), the scanner yields the tokens of the whole input: a read boundary just after a separator byte loses nothing |
| SortCommand.ScanAsWrittenStopsAtFirstRead | cmd/natural/sort.go:217-223 | with the written split function, a non-empty first read without the separator byte is the whole output, whatever reads follow: a boundary anywhere other than just after a separator, including just before one, can end the scan early |
| SortCommand.ScanAsWrittenDropsAfterBoundary | cmd/natural/sort.go:217-223 | the reads `a` and `,b` yield only `a` with the written split function, while the input `a,b` holds the tokens `a` and `b` |
| SortCommand.ScanAsWrittenAlignedReads | cmd/natural/sort.go:182-188 | the reads `a,` and `b` yield `a` and `b` with the written split function |
| SortCommand.TrimLast | cmd/natural/sort.go:194-200 | all tokens but the last are kept; the last loses exactly its trailing newlines |
| SortCommand.TrimLastIdempotent | cmd/natural/sort.go:194-200 | trimming twice is trimming once |
| SortCommand.TrimLastKeepsOut | cmd/natural/sort.go:194-200 | trimming introduces no separator byte |
| SortCommand.PermutationKeepsOut | cmd/natural/sort.go:203 | a permutation of separator-free tokens is separator-free and as long |
| SortCommand.ScanNonEmpty | cmd/natural/sort.go:185-195 | the scanner yields at least one token with either split function, so the source's `buf[len(buf)-1]` never indexes an empty slice |
| SortCommand.TrimSortJoin | cmd/natural/sort.go:194-206 | when no token holds the separator byte, the trimmed, sorted and joined output splits back into a sorted permutation of the trimmed tokens |
| SortCommand.SortedTokensSplitBack | cmd/natural/sort.go:203-206 | a permutation of the trimmed separator-free tokens, joined with the separator, splits back into itself |
| SortCommand.NaturalSort | cmd/natural/sort.go:180-209 | with the intended separator check and split function: the error exactly when the separator is not one byte; otherwise the output splits into a sorted permutation of the input's trimmed tokens, however the input is cut into reads |
| SortCommand.NaturalSortAsWritten | cmd/natural/sort.go:180-224 | the pipeline as the program wires it, with the separator check `SeparatorRune` and `splitOn`'s split function: the error exactly when the separator is not one byte; for an ASCII separator and input whose every read but the last ends with it (so in particular input in at most one read), the same sorted-permutation guarantee as `NaturalSort` |
| SortCommand.NaturalSortOutputUnique | cmd/natural/sort.go:203-206 | two outputs that each split into a sorted arrangement of the same tokens are equal |
| SortCommand.HighSeparatorBreaksRoundTrip | cmd/natural/sort.go:66-70 | with the separator byte 0xFF, the written check hands on RuneError, the split cuts at byte 0xFD, and the join puts 0xFF back in its place |
| SortCommand.SeparatorRoundTrip | cmd/natural/sort.go:95-99 | with the intended check, joining the tokens with the separator restores the input exactly |
| SortCommand.AsciiSeparatorsAgree | cmd/natural/sort.go:62-70 | for an ASCII separator, the written and intended checks cut at the same byte |

## Left out

- Flag parsing, logging, the execution group and interrupt handling (cmd/natural/sort.go:28-60, 72-117): process glue with no logic to verify.
- `read` and `write` (cmd/natural/sort.go:119-178): they open files, decompress gzip and write to stdout or a file. The input arrives as a sequence of reads instead. The `TrimSpace` of the `-input` and `-input.file` flags belongs to this glue.
- `pkg/fs` is not part of this model: it is a filesystem abstraction.
- NaturalSort: a space separator makes `splitOn` return `bufio.ScanWords`. The model requires a separator other than a space, because word scanning is a Unicode-aware standard-library routine outside this core.
- NaturalSort: `bufio.Scanner`'s buffer limit (`ErrTooLong` for a token over 64 KiB) and its panic after 100 empty tokens without progress are not modelled. Scanner errors are not modelled either, and neither is the read size.
- NaturalSort: it is built from the corrected separator check and split function (see Findings), not from the ones the program wires in. For the program as written, `NaturalSortAsWritten` promises the sorted-permutation guarantee only for an ASCII separator and input whose every read but the last ends with the separator, at most one read included. Read boundaries just after a separator byte do no harm (`ScanAsWrittenSeparatorEnded`); outside that case the source can lose input, because a boundary anywhere else, inside a token or just before a separator, can end the scan early (`ScanAsWrittenDropsInput`, `ScanAsWrittenDropsAfterBoundary`, `ScanAsWrittenStopsAtFirstRead`), and it splits at the wrong byte for a separator byte 0x80 or above (`HighSeparatorBreaksRoundTrip`).
- NaturalSortAsWritten: the sorted-permutation guarantee is stated only for an ASCII separator and reads that, but for the last, end with it, because at any other read boundary the as-written split function can end the scan early (Findings; `ScanAsWrittenStopsAtFirstRead`).
- SeparatorRune: the `size == 0` error branch (cmd/natural/sort.go:67-69) is not modelled separately. `utf8.DecodeLastRuneInString` returns size 0 only for an empty string, which the length check has already rejected.
- CoerceToInt: the value is an unbounded natural number. The source's `strconv.Atoi` panics on a run above the 64-bit range; that panic is not modelled.
- IsDigit: only ASCII digits are digits. `unicode.IsDigit` also accepts other Unicode decimal digits. A run of such digits makes `coerceToInt` panic when the walk reaches it. Before that point it changes which branch decides, so the model, which treats such characters as non-digits, answers differently. For example, the source's `compare("a٣", "a")` is true at pkg/natural/natural.go:54-55, while the model's `Compare("a٣", "a")` is false.
- Sort: `sort.Sort`'s own algorithm (pattern-defeating quicksort) is not modelled. Insertion sort stands in for it. Any sort that returns a sorted permutation gives the same result, because the order is strict and total (`SortedUnique`).
- The run of `Sort` on each `TestSort` row is not modelled. `NaturalTable` proves instead that every sorted permutation of the row's input equals the expected output, which covers any sort.
- The benchmarks and the random string generator in pkg/natural/natural_test.go:89-130: they measure speed only.
- The tests in cmd/natural/sort_test.go: they exercise `read` and `write`, which are left out above.

## Findings

| source | as written | input that shows it | evidently intended | confidence | as-written member | corrected member |
|---|---|---|---|---|---|---|
| cmd/natural/sort.go:217-224 | without a separator in the buffered data, the split function returns all of it as `bufio.ErrFinalToken` whether or not `atEOF` is set | the reads `1` and then `0,` (in practice: any input longer than the scanner's first 4096-byte read whose read boundary does not fall just after a separator byte, e.g. 2000 copies of `10,`; the reads `a` and `,b` lose `b` the same way); the scan stops with the token `1` and the rest of the input is lost | return `0, nil, nil` to ask for more data unless `atEOF`, as the standard library's example does; the scan then yields `10` and the empty token | high; not executed | SortCommand.SplitAsWritten, SortCommand.FinalTokenBeforeEof, SortCommand.ScanAsWrittenDropsInput, SortCommand.ScanAsWrittenDropsAfterBoundary, SortCommand.NaturalSortAsWritten | SortCommand.Split, SortCommand.SplitStableUnderExtension, SortCommand.ScanIntended, SortCommand.NaturalSort |
| cmd/natural/sort.go:66-70 | the one-byte separator is decoded as UTF-8, and `splitOn` cuts at `byte(rune)`; a byte 0x80 or above decodes to `utf8.RuneError` (U+FFFD), whose low byte is 0xFD, while the output is joined with the original separator | separator byte 0xFF on data `a`, 0xFD, `b`: the split gives `a` and `b`, and the output is `a`, 0xFF, `b` | split at the separator's own byte, so that joining restores what was split | high; not executed | SortCommand.SeparatorRune, SortCommand.HighSeparatorBreaksRoundTrip, SortCommand.NaturalSortAsWritten | SortCommand.SeparatorByte, SortCommand.SeparatorRoundTrip, SortCommand.NaturalSort |

=== FILE: command.dfy ===
/** The `sort` command (cmd/natural/sort.go): the separator check, the split
    function handed to `bufio.Scanner`, the scanner loop that collects the
    tokens, the trim of trailing newlines, and the sort-and-join that
    produces the output. A string here stands for a Go byte string: each
    `char` is one byte. */
module SortCommand {
  import opened Strings
  import opened Natural

  /** Outcome of the separator check: a value, or the "invalid separator"
      error that ends the command. */
  datatype Outcome<T> = Ok(value: T) | InvalidSeparator

  /** `utf8.RuneError`, U+FFFD. */
  const RuneError: char := '\U{FFFD}'

  /** Go's `byte(r)`: the low eight bits of a rune. */
  function ByteOf(r: char): (b: char)
    ensures b as int < 256
    ensures r as int < 256 ==> b == r
  {
    ((r as int) % 256) as char
  }

  // The separator check.

  /** `utf8.DecodeLastRuneInString` on a one-byte string: an ASCII byte is
      its own rune; any other lone byte is invalid UTF-8 and decodes to
      `RuneError`. */
  function DecodeByte(c: char): (r: char)
    requires c as int < 256
    ensures r == c <==> c as int < 0x80
    ensures r != c ==> r == RuneError
  {
    if c as int < 0x80 then c else RuneError
  }

  /** The check as written: a separator must be exactly one byte, and the
      rune the split function looks for is that byte decoded as UTF-8. The
      `size == 0` error cannot occur once the length is one. */
  function SeparatorRune(separator: string): (r: Outcome<char>)
    requires forall i | 0 <= i < |separator| :: separator[i] as int < 256
    ensures r.InvalidSeparator? <==> |separator| != 1
    ensures r.Ok? ==> (r.value == separator[0] <==> separator[0] as int < 0x80)
  {
    if |separator| != 1 then InvalidSeparator
    else Ok(DecodeByte(separator[0]))
  }

  /** The check as intended: the byte the split function looks for is the
      separator's one byte, the very string that `strings.Join` puts back. */
  function SeparatorByte(separator: string): (r: Outcome<char>)
    ensures r.InvalidSeparator? <==> |separator| != 1
    ensures r.Ok? ==> separator == [r.value]
  {
    if |separator| != 1 then InvalidSeparator
    else Ok(separator[0])
  }

  // The split function.

  /** What a `bufio.SplitFunc` reports: a token and how far to advance, the
      final token (`bufio.ErrFinalToken`), or a request for more data. */
  datatype Step = Token(advance: nat, token: string) | FinalToken(token: string) | NeedMore

  /** The split function of `splitOn` as written: the bytes before the first
      separator byte, or else all the data as the final token, whether or not
      the input has ended. */
  function SplitAsWritten(r: char, data: string, atEOF: bool): (s: Step)
    ensures !s.NeedMore?
    ensures s.FinalToken? <==> ByteOf(r) !in data
    ensures s.FinalToken? ==> s.token == data
    ensures s.Token? ==>
      && 1 <= s.advance <= |data|
      && data == s.token + [ByteOf(r)] + data[s.advance..]
      && ByteOf(r) !in s.token
  {
    var i := IndexByte(data, ByteOf(r));
    if i == -1 then FinalToken(data)
    else
      assert data == data[..i] + [ByteOf(r)] + data[i + 1..];
      Token(i + 1, data[..i])
  }

  /** The split function as intended: without a separator byte, the data is
      the final token only once the input has ended; before that the scanner
      is asked for more. */
  function Split(b: char, data: string, atEOF: bool): (s: Step)
    ensures s.FinalToken? <==> b !in data && atEOF
    ensures s.NeedMore? <==> b !in data && !atEOF
    ensures s.FinalToken? ==> s.token == data
    ensures s.Token? ==>
      && 1 <= s.advance <= |data|
      && data == s.token + [b] + data[s.advance..]
      && b !in s.token
  {
    var i := IndexByte(data, b);
    if i == -1 then (if atEOF then FinalToken(data) else NeedMore)
    else
      assert data == data[..i] + [b] + data[i + 1..];
      Token(i + 1, data[..i])
  }

  /** At the end of the input, and whenever the data holds a separator, the
      two split functions agree. */
  lemma SplitAgreesOnCompleteData(r: char, data: string, atEOF: bool)
    requires atEOF || ByteOf(r) in data
    ensures SplitAsWritten(r, data, atEOF) == Split(ByteOf(r), data, atEOF)
  {
  }

  /** A decision the intended split function makes before the end of the
      input stands however much data arrives after it. */
  lemma SplitStableUnderExtension(b: char, data: string, more: string, atEOF: bool)
    requires !Split(b, data, false).NeedMore?
    ensures Split(b, data + more, atEOF) == Split(b, data, false)
  {
    var i := IndexByte(data, b);
    assert (data + more)[..i] == data[..i];
    assert (data + more)[i] == b;
  }

  /** The split function as written decides too early: on the partial data
      "1" it returns the final token "1", while the data "10," that follows
      once more bytes arrive starts with the token "10". */
  lemma FinalTokenBeforeEof()
    ensures SplitAsWritten(',', "1", false) == FinalToken("1")
    ensures SplitAsWritten(',', "1" + "0,", false) == Token(3, "10")
  {
    assert "1" + "0," == "10,";
    assert "10,"[..2] == "10";
  }

  // The tokens of a whole input.

  /** No token holds the separator byte. */
  predicate SeparatorFree(b: char, ts: seq<string>) {
    forall i | 0 <= i < |ts| :: b !in ts[i]
  }

  /** The input cut at every separator byte: the tokens the command sorts. */
  function SplitAll(b: char, s: string): (ts: seq<string>)
    ensures |ts| > 0
    ensures SeparatorFree(b, ts)
    ensures Join([b], ts) == s
    decreases |s|
  {
    var i := IndexByte(s, b);
    if i == -1 then [s]
    else
      var rest := SplitAll(b, s[i + 1..]);
      var ts := [s[..i]] + rest;
      assert ts[1..] == rest;
      assert s == s[..i] + [b] + s[i + 1..];
      ts
  }

  /** A token without the separator, then the separator, opens the split. */
  lemma SplitAllAt(b: char, t: string, s: string)
    requires b !in t
    ensures SplitAll(b, t + [b] + s) == [t] + SplitAll(b, s)
  {
    var u := t + [b] + s;
    assert u[..|t|] == t && u[|t|] == b;
    assert u[|t| + 1..] == s;
  }

  /** Splitting undoes joining, as long as no element holds the separator. */
  lemma {:induction false} SplitAllJoin(b: char, ts: seq<string>)
    requires |ts| > 0 && SeparatorFree(b, ts)
    ensures SplitAll(b, Join([b], ts)) == ts
    decreases |ts|
  {
    if |ts| > 1 {
      SplitAllJoin(b, ts[1..]);
      SplitAllAt(b, ts[0], Join([b], ts[1..]));
      assert ts == [ts[0]] + ts[1..];
    }
  }

  /** The reads that `bufio.Scanner` makes, put back together. */
  function Concat(chunks: seq<string>): (s: string) {
    if |chunks| == 0 then "" else chunks[0] + Concat(chunks[1..])
  }

  /** Which split function the scanner is given. */
  datatype Splitter = AsWritten(r: char) | Intended(b: char)

  function Apply(split: Splitter, data: string, atEOF: bool): (s: Step)
    ensures s.NeedMore? ==> !atEOF
    ensures s.Token? ==> 1 <= s.advance <= |data|
  {
    match split
    case AsWritten(r) => SplitAsWritten(r, data, atEOF)
    case Intended(b) => Split(b, data, atEOF)
  }

  /** `bufio.Scanner` driving a split function: `pending` is the unconsumed
      data, `chunks` the reads still to come, `eof` whether a read has
      reported the end of the input. The split function is called when data
      is pending or the input has ended; a token is collected and its bytes
      consumed; the final token ends the scan; a request for more data, or
      an empty buffer, triggers the next read. */
  function Scan(split: Splitter, pending: string, chunks: seq<string>, eof: bool): (tokens: seq<string>)
    decreases |chunks|, if eof then 0 else 1, |pending|
  {
    var step := if |pending| > 0 || eof then Apply(split, pending, eof) else NeedMore;
    if step.FinalToken? then [step.token]
    else if step.Token? then [step.token] + Scan(split, pending[step.advance..], chunks, eof)
    else if eof then []
    else if |chunks| == 0 then Scan(split, pending, [], true)
    else Scan(split, pending + chunks[0], chunks[1..], false)
  }

  /** Regrouping a concatenation, stated apart so that the recursive `Concat`
      does not take part. */
  lemma Regroup(x: string, y: string, z: string)
    ensures x + y + z == x + (y + z)
  {
  }

  /** A token step of the scanner takes off the first token of the input. */
  lemma ScanTokenStep(b: char, pending: string, chunks: seq<string>, eof: bool)
    requires |pending| > 0 || eof
    requires Split(b, pending, eof).Token?
    requires var after := pending[Split(b, pending, eof).advance..];
      Scan(Intended(b), after, chunks, eof) == SplitAll(b, after + Concat(chunks))
    ensures Scan(Intended(b), pending, chunks, eof) == SplitAll(b, pending + Concat(chunks))
  {
    var step, rest := Split(b, pending, eof), Concat(chunks);
    var t, after := step.token, pending[step.advance..];
    Regroup(t + [b], after, rest);
    SplitAllAt(b, t, after + rest);
  }

  /** A read step of the scanner moves the next read into the pending data. */
  lemma ScanReadStep(b: char, pending: string, chunks: seq<string>)
    requires |pending| == 0 || Split(b, pending, false).NeedMore?
    requires |chunks| > 0
    requires Scan(Intended(b), pending + chunks[0], chunks[1..], false)
      == SplitAll(b, pending + chunks[0] + Concat(chunks[1..]))
    ensures Scan(Intended(b), pending, chunks, false) == SplitAll(b, pending + Concat(chunks))
  {
    Regroup(pending, chunks[0], Concat(chunks[1..]));
  }

  /** With the intended split function, the scanner yields the tokens of the
      whole input, however the input is cut into reads. */
  lemma {:induction false} ScanFrom(b: char, pending: string, chunks: seq<string>, eof: bool)
    requires eof ==> |chunks| == 0
    ensures Scan(Intended(b), pending, chunks, eof) == SplitAll(b, pending + Concat(chunks))
    decreases |chunks|, if eof then 0 else 1, |pending|
  {
    var step := if |pending| > 0 || eof then Split(b, pending, eof) else NeedMore;
    if step.FinalToken? {
      assert pending + Concat(chunks) == pending;
    } else if step.Token? {
      ScanFrom(b, pending[step.advance..], chunks, eof);
      ScanTokenStep(b, pending, chunks, eof);
    } else if |chunks| == 0 {
      ScanFrom(b, pending, [], true);
    } else {
      ScanFrom(b, pending + chunks[0], chunks[1..], false);
      ScanReadStep(b, pending, chunks);
    }
  }

  lemma ScanIntended(b: char, chunks: seq<string>)
    ensures Scan(Intended(b), "", chunks, false) == SplitAll(b, Concat(chunks))
  {
    ScanFrom(b, "", chunks, false);
    assert "" + Concat(chunks) == Concat(chunks);
  }

  /** With the split function as written, data that arrives in a single
      read is split correctly. */
  lemma {:induction false} ScanAsWrittenFrom(r: char, pending: string, eof: bool)
    ensures Scan(AsWritten(r), pending, [], eof) == SplitAll(ByteOf(r), pending)
    decreases if eof then 0 else 1, |pending|
  {
    var step := if |pending| > 0 || eof then SplitAsWritten(r, pending, eof) else NeedMore;
    if step.Token? {
      var t, after := step.token, pending[step.advance..];
      ScanAsWrittenFrom(r, after, eof);
      SplitAllAt(ByteOf(r), t, after);
    } else if step.NeedMore? {
      ScanAsWrittenFrom(r, pending, true);
    }
  }

  lemma ScanAsWrittenOneRead(r: char, s: string)
    ensures Scan(AsWritten(r), "", [s], false) == SplitAll(ByteOf(r), s)
  {
    ScanAsWrittenFrom(r, s, false);
    assert "" + s == s && ([s])[1..] == [];
  }

  /** With the split function as written, an input that arrives as the read
      "1" and then the read "0," yields the single token "1": the final token
      is reported before the input has ended, and the rest is never read. The
      intended split function yields the tokens "10" and "". */
  lemma ScanAsWrittenDropsInput()
    ensures Scan(AsWritten(','), "", ["1", "0,"], false) == ["1"]
    ensures Scan(Intended(','), "", ["1", "0,"], false) == ["10", ""]
  {
    var chunks := ["1", "0,"];
    assert Scan(AsWritten(','), "", chunks, false) == Scan(AsWritten(','), "" + "1", ["0,"], false);
    assert "" + "1" == "1" && ByteOf(',') == ',';
    assert SplitAsWritten(',', "1", false) == FinalToken("1");
    ScanIntended(',', chunks);
    assert Concat(chunks) == "10,";
    SplitAllAt(',', "10", "");
    assert "10" + [','] + "" == "10,";
  }

  /** With nothing pending, the scanner starts with a read. */
  lemma ScanFirstRead(split: Splitter, chunks: seq<string>)
    requires |chunks| > 0
    ensures Scan(split, "", chunks, false) == Scan(split, chunks[0], chunks[1..], false)
  {
    assert "" + chunks[0] == chunks[0];
  }

  /** A token step of the scanner, with the split function as written. */
  lemma ScanAsWrittenTokenStep(r: char, pending: string, chunks: seq<string>, t: string, advance: nat)
    requires |pending| > 0
    requires SplitAsWritten(r, pending, false) == Token(advance, t)
    ensures advance <= |pending|
    ensures Scan(AsWritten(r), pending, chunks, false) == [t] + Scan(AsWritten(r), pending[advance..], chunks, false)
  {
  }

  /** Every read but the last ends with the separator byte. */
  predicate SeparatorEnded(b: char, chunks: seq<string>) {
    forall i | 0 <= i < |chunks| - 1 :: |chunks[i]| > 0 && chunks[i][|chunks[i]| - 1] == b
  }

  /** Not every cut into several reads loses input: when every read but the
      last ends with the separator byte, and so does the pending data if
      more reads follow, the split function as written yields the tokens of
      the whole input, as the intended one does. */
  lemma {:induction false} ScanAsWrittenSeparatorEnded(r: char, pending: string, chunks: seq<string>)
    requires |chunks| > 0 && |pending| > 0 ==> pending[|pending| - 1] == ByteOf(r)
    requires SeparatorEnded(ByteOf(r), chunks)
    ensures Scan(AsWritten(r), pending, chunks, false) == SplitAll(ByteOf(r), pending + Concat(chunks))
    decreases |chunks|, |pending|
  {
    var b := ByteOf(r);
    if |chunks| == 0 {
      ScanAsWrittenFrom(r, pending, false);
      assert pending + Concat(chunks) == pending;
    } else if |pending| == 0 {
      ScanFirstRead(AsWritten(r), chunks);
      var rest := chunks[1..];
      forall i | 0 <= i < |rest| - 1
        ensures |rest[i]| > 0 && rest[i][|rest[i]| - 1] == b
      {
        assert rest[i] == chunks[i + 1];
      }
      ScanAsWrittenSeparatorEnded(r, chunks[0], rest);
      assert pending + Concat(chunks) == chunks[0] + Concat(rest);
    } else {
      assert b in pending;
      var step := SplitAsWritten(r, pending, false);
      var t, after := step.token, pending[step.advance..];
      ScanAsWrittenTokenStep(r, pending, chunks, t, step.advance);
      assert |after| > 0 ==> after[|after| - 1] == pending[|pending| - 1];
      ScanAsWrittenSeparatorEnded(r, after, chunks);
      Regroup(t + [b], after, Concat(chunks));
      SplitAllAt(b, t, after + Concat(chunks));
    }
  }

  /** With the split function as written, a first read that holds no
      separator byte is the whole output: the split reports it as the final
      token, and nothing after it is read. The boundary may fall inside a
      token or just before a separator byte. */
  lemma ScanAsWrittenStopsAtFirstRead(r: char, t: string, more: seq<string>)
    requires |t| > 0 && ByteOf(r) !in t
    ensures Scan(AsWritten(r), "", [t] + more, false) == [t]
  {
    ScanFirstRead(AsWritten(r), [t] + more);
    assert ([t] + more)[0] == t;
  }

  /** The reads "a" and ",b" yield only "a": a boundary just before the
      separator loses the token after it. */
  lemma ScanAsWrittenDropsAfterBoundary()
    ensures Scan(AsWritten(','), "", ["a", ",b"], false) == ["a"]
    ensures SplitAll(',', "a,b") == ["a", "b"]
  {
    assert ByteOf(',') == ',' && ["a", ",b"] == ["a"] + [",b"];
    ScanAsWrittenStopsAtFirstRead(',', "a", [",b"]);
    SplitAllAt(',', "a", "b");
    assert "a" + [','] + "b" == "a,b";
  }

  /** The reads "a," and "b" are split alike by both split functions. */
  lemma ScanAsWrittenAlignedReads()
    ensures Scan(AsWritten(','), "", ["a,", "b"], false) == ["a", "b"]
  {
    var chunks := ["a,", "b"];
    assert ByteOf(',') == ',' && chunks[0] == "a" + [','];
    ScanAsWrittenSeparatorEnded(',', "", chunks);
    assert "" + Concat(chunks) == "a" + [','] + "b";
    SplitAllAt(',', "a", "b");
    assert SplitAll(',', "b") == ["b"];
  }

  // Trimming, sorting and joining.

  predicate IsNewline(c: char) {
    c == '\n'
  }

  /** The last token loses its trailing newlines, when it holds a newline at
      all; every other token is kept. */
  function TrimLast(buf: seq<string>): (r: seq<string>)
    requires |buf| > 0
    ensures |r| == |buf| && r[..|r| - 1] == buf[..|buf| - 1]
    ensures var last, trimmed := buf[|buf| - 1], r[|r| - 1];
      && trimmed <= last
      && (forall i | |trimmed| <= i < |last| :: last[i] == '\n')
      && (|trimmed| == 0 || trimmed[|trimmed| - 1] != '\n')
  {
    var last := buf[|buf| - 1];
    if '\n' in last then buf[..|buf| - 1] + [TrimRightFunc(last, IsNewline)]
    else buf
  }

  lemma TrimLastIdempotent(buf: seq<string>)
    requires |buf| > 0
    ensures TrimLast(TrimLast(buf)) == TrimLast(buf)
  {
    var r := TrimLast(buf);
    var trimmed := r[|r| - 1];
    if '\n' in trimmed {
      var k :| 0 <= k < |trimmed| && trimmed[k] == '\n';
      assert trimmed[|trimmed| - 1] != '\n';
      assert TrimRightFunc(trimmed, IsNewline) == trimmed;
    }
    assert r == r[..|r| - 1] + [trimmed];
  }

  /** The scanner, with either split function, yields at least one token:
      at the end of the input neither asks for more, so the scan ends with a
      final token. The source indexes the last token without a check. */
  lemma {:induction false} ScanNonEmpty(split: Splitter, pending: string, chunks: seq<string>, eof: bool)
    ensures |Scan(split, pending, chunks, eof)| > 0
    decreases |chunks|, if eof then 0 else 1, |pending|
  {
    var step := if |pending| > 0 || eof then Apply(split, pending, eof) else NeedMore;
    if step.Token? {
      ScanNonEmpty(split, pending[step.advance..], chunks, eof);
    } else if step.NeedMore? && |chunks| == 0 {
      ScanNonEmpty(split, pending, [], true);
    } else if step.NeedMore? {
      ScanNonEmpty(split, pending + chunks[0], chunks[1..], false);
    }
  }

  /** The end of `naturalSort`: trim the last token, sort, join with the
      separator. When the tokens hold no separator byte, the output splits
      back into a sorted permutation of the trimmed tokens. */
  method TrimSortJoin(separator: string, buf: seq<string>) returns (out: string)
    requires |buf| > 0
    ensures |separator| == 1 && SeparatorFree(separator[0], buf) ==>
      var o := SplitAll(separator[0], out);
      Sorted(o) && multiset(o) == multiset(TrimLast(buf))
  {
    var trimmed := TrimLast(buf);
    var sorted := Sort(trimmed);
    out := Join(separator, sorted);
    if |separator| == 1 && SeparatorFree(separator[0], buf) {
      var b := separator[0];
      assert separator == [b];
      SortedTokensSplitBack(b, buf, sorted);
    }
  }

  /** A sorted permutation of the trimmed separator-free tokens, joined with
      the separator, splits back into itself. */
  lemma SortedTokensSplitBack(b: char, buf: seq<string>, sorted: seq<string>)
    requires |buf| > 0 && SeparatorFree(b, buf)
    requires multiset(sorted) == multiset(TrimLast(buf))
    ensures SplitAll(b, Join([b], sorted)) == sorted
  {
    TrimLastKeepsOut(b, buf);
    PermutationKeepsOut(b, TrimLast(buf), sorted);
    SplitAllJoin(b, sorted);
  }

  /** `naturalSort` over the intended separator check and split function: the
      input, read as `chunks`, is cut into tokens, the last one is trimmed,
      the tokens are sorted and joined with the separator again. The output
      splits back into the sorted tokens: a sorted permutation of the input's
      tokens, however the input is cut into reads. A space separator selects
      `bufio.ScanWords`, which is not part of this model. */
  method NaturalSort(separator: string, chunks: seq<string>) returns (r: Outcome<string>)
    requires separator != " "
    ensures r.InvalidSeparator? <==> |separator| != 1
    ensures r.Ok? ==>
      var tokens := TrimLast(SplitAll(separator[0], Concat(chunks)));
      var out := SplitAll(separator[0], r.value);
      Sorted(out) && multiset(out) == multiset(tokens)
  {
    var sep := SeparatorByte(separator);
    if sep.InvalidSeparator? {
      return InvalidSeparator;
    }
    var b := sep.value;
    var buf := Scan(Intended(b), "", chunks, false);
    ScanIntended(b, chunks);
    var out := TrimSortJoin(separator, buf);
    r := Ok(out);
  }

  /** `naturalSort` as the program wires it: the separator check as written
      and `splitOn`'s split function as written. It keeps the guarantee of
      `NaturalSort` when the separator is ASCII and every read but the last
      ends with it, which holds of input in a single read or in none;
      `ScanAsWrittenDropsInput`, `ScanAsWrittenDropsAfterBoundary` and
      `HighSeparatorBreaksRoundTrip` show how it can lose the guarantee
      otherwise. */
  method NaturalSortAsWritten(separator: string, chunks: seq<string>) returns (r: Outcome<string>)
    requires separator != " "
    requires forall i | 0 <= i < |separator| :: separator[i] as int < 256
    ensures r.InvalidSeparator? <==> |separator| != 1
    ensures r.Ok? && separator[0] as int < 0x80 && SeparatorEnded(separator[0], chunks) ==>
      var tokens := TrimLast(SplitAll(separator[0], Concat(chunks)));
      var out := SplitAll(separator[0], r.value);
      Sorted(out) && multiset(out) == multiset(tokens)
  {
    var sep := SeparatorRune(separator);
    if sep.InvalidSeparator? {
      return InvalidSeparator;
    }
    var buf := Scan(AsWritten(sep.value), "", chunks, false);
    ScanNonEmpty(AsWritten(sep.value), "", chunks, false);
    if separator[0] as int < 0x80 && SeparatorEnded(separator[0], chunks) {
      assert ByteOf(sep.value) == separator[0];
      ScanAsWrittenSeparatorEnded(sep.value, "", chunks);
      assert "" + Concat(chunks) == Concat(chunks);
    }
    var out := TrimSortJoin(separator, buf);
    r := Ok(out);
  }

  lemma TrimLastKeepsOut(b: char, buf: seq<string>)
    requires |buf| > 0 && SeparatorFree(b, buf)
    ensures SeparatorFree(b, TrimLast(buf))
  {
    var r := TrimLast(buf);
    forall i | 0 <= i < |r|
      ensures b !in r[i]
    {
      if i < |r| - 1 {
        assert r[i] == r[..|r| - 1][i];
      } else {
        assert r[i] <= buf[|buf| - 1];
      }
    }
  }

  lemma PermutationKeepsOut(b: char, ts: seq<string>, us: seq<string>)
    requires SeparatorFree(b, ts) && multiset(us) == multiset(ts)
    ensures SeparatorFree(b, us) && |us| == |ts|
  {
    forall i | 0 <= i < |us|
      ensures b !in us[i]
    {
      assert us[i] in multiset(ts);
    }
    assert |us| == |multiset(us)| == |multiset(ts)| == |ts|;
  }

  /** The output does not depend on how the input was cut into reads, nor on
      the algorithm that sorts: it is the one sorted arrangement of the
      tokens, joined. */
  lemma NaturalSortOutputUnique(separator: string, tokens: seq<string>, out1: string, out2: string)
    requires |separator| == 1
    requires var o := SplitAll(separator[0], out1); Sorted(o) && multiset(o) == multiset(tokens)
    requires var o := SplitAll(separator[0], out2); Sorted(o) && multiset(o) == multiset(tokens)
    ensures out1 == out2
  {
    var b := separator[0];
    SortedUnique(SplitAll(b, out1), SplitAll(b, out2));
    assert separator == [b];
  }

  /** The separator check as written: a lone byte from 0x80 up becomes
      `RuneError`, so the split function cuts at byte 0xFD while the output
      is joined with the separator itself. With the separator 0xFF, the data
      "a", 0xFD, "b" splits into "a" and "b" and is joined back as "a", 0xFF,
      "b". */
  lemma HighSeparatorBreaksRoundTrip()
    ensures SeparatorRune("\U{FF}") == Ok(RuneError)
    ensures ByteOf(RuneError) == '\U{FD}'
    ensures SplitAll(ByteOf(RuneError), "a\U{FD}b") == ["a", "b"]
    ensures Join("\U{FF}", ["a", "b"]) == "a\U{FF}b" != "a\U{FD}b"
  {
    assert "a\U{FD}b" == "a" + ['\U{FD}'] + "b";
    SplitAllAt('\U{FD}', "a", "b");
    assert ["a", "b"][1..] == ["b"];
    assert ("a\U{FF}b")[1] != ("a\U{FD}b")[1];
  }

  /** The intended check puts back exactly what was cut: joining the tokens
      with the separator restores the input. */
  lemma SeparatorRoundTrip(separator: string, data: string)
    requires SeparatorByte(separator).Ok?
    ensures Join(separator, SplitAll(SeparatorByte(separator).value, data)) == data
  {
  }

  /** For an ASCII separator the check as written and the intended one cut
      at the same byte. */
  lemma AsciiSeparatorsAgree(separator: string)
    requires |separator| == 1 && separator[0] as int < 0x80
    ensures SeparatorRune(separator).Ok? && SeparatorByte(separator).Ok?
    ensures ByteOf(SeparatorRune(separator).value) == SeparatorByte(separator).value
  {
  }
}

=== FILE: digits.dfy ===
/** Digit classification and digit-run reading for the natural comparator:
    `indexOfNumber`, `indexOfNonNumber`, `not` and `coerceToInt`.
    Digits are the ASCII characters '0' to '9'. */
module Digits {
  import opened Strings

  predicate IsDigit(c: char) {
    '0' <= c <= '9'
  }

  /** `not`: the complement of a character predicate. */
  function Not(p: char -> bool): (q: char -> bool)
    ensures forall c :: q(c) == !p(c)
  {
    c => !p(c)
  }

  predicate NoDigits(s: string) {
    forall i | 0 <= i < |s| :: !IsDigit(s[i])
  }

  /** A non-empty string made only of digits: what `strconv.Atoi` accepts
      without a sign. */
  predicate IsDigitRun(s: string) {
    |s| > 0 && forall i | 0 <= i < |s| :: IsDigit(s[i])
  }

  /** `indexOfNumber`: where the next digit run starts, or -1. */
  function IndexOfNumber(s: string): (r: int)
    ensures r == -1 <==> NoDigits(s)
    ensures 0 <= r ==> r < |s| && IsDigit(s[r]) && NoDigits(s[..r])
  {
    IndexFunc(s, IsDigit)
  }

  /** `indexOfNonNumber`: where the leading digits stop, or -1 when the whole
      string is digits. */
  function IndexOfNonNumber(s: string): (r: int)
    ensures r == -1 <==> forall i | 0 <= i < |s| :: IsDigit(s[i])
    ensures 0 <= r ==> r < |s| && !IsDigit(s[r]) && forall i | 0 <= i < r :: IsDigit(s[i])
  {
    IndexFunc(s, Not(IsDigit))
  }

  /** Where the digit run at the head of `s` ends: the position of the first
      non-digit, or the length of `s` when there is none. */
  function DigitRunEnd(s: string): (j: nat)
    requires |s| > 0 && IsDigit(s[0])
    ensures 1 <= j <= |s|
    ensures IsDigitRun(s[..j])
    ensures j == |s| || !IsDigit(s[j])
  {
    var k := IndexOfNonNumber(s);
    if k == -1 then |s| else k
  }

  function DigitValue(c: char): (d: nat)
    requires IsDigit(c)
    ensures d < 10
  {
    (c as int) - ('0' as int)
  }

  function Pow10(n: nat): (p: nat)
    ensures p >= 1
  {
    if n == 0 then 1 else 10 * Pow10(n - 1)
  }

  /** `coerceToInt`: the base-10 value of a digit run, without the 64-bit
      bound of `strconv.Atoi`. A run of k digits reads below 10^k. */
  function CoerceToInt(s: string): (n: nat)
    requires IsDigitRun(s)
    ensures n < Pow10(|s|)
    decreases |s|
  {
    if |s| == 1 then DigitValue(s[0])
    else CoerceToInt(s[..|s| - 1]) * 10 + DigitValue(s[|s| - 1])
  }

  /** Two runs of the same length with the same value are the same run: the
      value and the length together recover every digit, leading zeros
      included. */
  lemma {:induction false} CoerceToIntInjective(s: string, t: string)
    requires IsDigitRun(s) && IsDigitRun(t)
    requires |s| == |t| && CoerceToInt(s) == CoerceToInt(t)
    ensures s == t
    decreases |s|
  {
    var n := |s| - 1;
    if n == 0 {
      assert s == [s[0]] && t == [t[0]];
    } else {
      var ps, pt := s[..n], t[..n];
      var ds, dt := DigitValue(s[n]), DigitValue(t[n]);
      assert CoerceToInt(ps) * 10 + ds == CoerceToInt(pt) * 10 + dt;
      assert ds == dt && CoerceToInt(ps) == CoerceToInt(pt);
      CoerceToIntInjective(ps, pt);
      assert s == ps + [s[n]] && t == pt + [t[n]];
    }
  }

  /** A run made only of the digit zero. */
  predicate AllZeros(z: string) {
    forall i | 0 <= i < |z| :: z[i] == '0'
  }

  lemma {:induction false} AllZerosValue(z: string)
    requires |z| > 0 && AllZeros(z)
    ensures IsDigitRun(z) && CoerceToInt(z) == 0
    decreases |z|
  {
    if |z| > 1 {
      AllZerosValue(z[..|z| - 1]);
    }
  }

  /** Leading zeros do not change the value of a run: `001` reads as `1`.
      Only the run length can then tell a padded run from its plain form. */
  lemma {:induction false} CoerceToIntLeadingZeros(z: string, d: string)
    requires AllZeros(z) && IsDigitRun(d)
    ensures IsDigitRun(z + d) && CoerceToInt(z + d) == CoerceToInt(d)
    decreases |d|
  {
    var s := z + d;
    assert forall i | 0 <= i < |s| :: IsDigit(s[i]) by {
      forall i | 0 <= i < |s| ensures IsDigit(s[i]) {
        if i < |z| { assert s[i] == z[i]; } else { assert s[i] == d[i - |z|]; }
      }
    }
    if |z| == 0 {
      assert s == d;
    } else if |d| == 1 {
      assert s[..|s| - 1] == z && s[|s| - 1] == d[0];
      AllZerosValue(z);
    } else {
      var d1 := d[..|d| - 1];
      assert s[..|s| - 1] == z + d1 && s[|s| - 1] == d[|d| - 1];
      CoerceToIntLeadingZeros(z, d1);
    }
  }
}

=== FILE: natural.dfy ===
/** The natural-order comparator `compare` and the sort built on it
    (package `natural`). */
module Natural {
  import opened Strings
  import opened Digits
  import opened Segments

  /** The loop of `compare`, read as a recursion over the two remaining
      suffixes. Every step consumes a whole digit run, at least one digit,
      from each side. */
  predicate Walk(x: string, y: string)
    decreases |x|
  {
    var xPos, yPos := IndexOfNumber(x), IndexOfNumber(y);
    if xPos == -1 && yPos == -1 then Less(x, y)
    else if xPos == -1 && yPos >= 0 then false
    else if yPos == -1 then true
    else if x[..xPos] != y[..yPos] then Less(x[..xPos], y[..yPos])
    else
      var x1, y1 := x[xPos..], y[yPos..];
      var xEnd, yEnd := DigitRunEnd(x1), DigitRunEnd(y1);
      var xNum, yNum := CoerceToInt(x1[..xEnd]), CoerceToInt(y1[..yEnd]);
      if xNum != yNum then xNum < yNum
      else if xEnd != yEnd then yEnd > xEnd
      else Walk(x1[xEnd..], y1[yEnd..])
  }

  /** `compare(a, b)`: does `a` strictly precede `b` in natural order? The
      empty string precedes every other string and follows none. */
  function Compare(a: string, b: string): (r: bool)
    ensures |a| == 0 ==> (r <==> |b| > 0)
    ensures |b| == 0 ==> !r
  {
    if |a| == 0 && |b| > 0 then true
    else if |b| == 0 && |a| > 0 then false
    else Walk(a, b)
  }

  /** `compare` as the source writes it: a loop that narrows two suffixes
      until one of the rules decides. */
  method CompareLoop(a: string, b: string) returns (r: bool)
    ensures r == Compare(a, b)
  {
    if |a| == 0 && |b| > 0 {
      return true;
    } else if |b| == 0 && |a| > 0 {
      return false;
    }
    var x, y := a, b;
    while true
      invariant Walk(x, y) == Compare(a, b)
      decreases |x|
    {
      var xPos, yPos := IndexOfNumber(x), IndexOfNumber(y);
      if xPos == -1 && yPos == -1 {
        return Less(x, y);
      } else if xPos == -1 && yPos >= 0 {
        return false;
      } else if yPos == -1 {
        return true;
      }
      if x[..xPos] != y[..yPos] {
        return Less(x[..xPos], y[..yPos]);
      }
      x, y := x[xPos..], y[yPos..];
      xPos, yPos := IndexOfNonNumber(x), IndexOfNonNumber(y);
      if xPos == -1 {
        xPos := |x|;
      }
      if yPos == -1 {
        yPos := |y|;
      }
      var xNum, yNum := CoerceToInt(x[..xPos]), CoerceToInt(y[..yPos]);
      if xNum != yNum {
        return xNum < yNum;
      }
      if xPos != yPos {
        return yPos > xPos;
      }
      x, y := x[xPos..], y[yPos..];
    }
  }

  /** The walk over two suffixes is the order of their segmentations. */
  lemma {:induction false} WalkIsSegLess(x: string, y: string)
    ensures Walk(x, y) == SegLess(Parse(x), Parse(y))
    decreases |x|, 1
  {
    if !NoDigits(x) && !NoDigits(y) {
      WalkAtRunsIsSegLess(x, y);
    }
  }

  /** The same when both suffixes hold a digit run: both sides compare
      their first runs, and the rest when the runs tie. */
  lemma {:induction false} WalkAtRunsIsSegLess(x: string, y: string)
    requires !NoDigits(x) && !NoDigits(y)
    ensures Walk(x, y) == SegLess(Parse(x), Parse(y))
    decreases |x|, 0
  {
    var xPos, yPos := IndexOfNumber(x), IndexOfNumber(y);
    var x1, y1 := x[xPos..], y[yPos..];
    var xEnd, yEnd := DigitRunEnd(x1), DigitRunEnd(y1);
    var px, dx, rx := x[..xPos], x1[..xEnd], x1[xEnd..];
    var py, dy, ry := y[..yPos], y1[..yEnd], y1[yEnd..];
    assert Parse(x) == Run(px, dx, Parse(rx));
    assert Parse(y) == Run(py, dy, Parse(ry));
    var nx, ny := CoerceToInt(dx), CoerceToInt(dy);
    if px != py {
      assert Walk(x, y) == Less(px, py);
    } else if nx != ny {
      assert Walk(x, y) == (nx < ny);
    } else if xEnd != yEnd {
      assert Walk(x, y) == (yEnd > xEnd);
    } else {
      assert Walk(x, y) == Walk(rx, ry);
      WalkIsSegLess(rx, ry);
    }
  }

  /** Natural order as a reference definition: the empty string first, then
      non-empty strings by the order of their segmentations. */
  ghost predicate NaturalLess(a: string, b: string) {
    if |a| == 0 then |b| > 0 else |b| > 0 && SegLess(Parse(a), Parse(b))
  }

  lemma CompareIsNaturalLess(a: string, b: string)
    ensures Compare(a, b) <==> NaturalLess(a, b)
  {
    if |a| > 0 && |b| > 0 {
      WalkIsSegLess(a, b);
    }
  }

  // The laws `sort.Sort` takes for granted of `slice.Less`.

  lemma CompareIrreflexive(a: string)
    ensures !Compare(a, a)
  {
    CompareIsNaturalLess(a, a);
    if |a| > 0 {
      SegLessIrreflexive(Parse(a));
    }
  }

  lemma CompareAsymmetric(a: string, b: string)
    ensures Compare(a, b) ==> !Compare(b, a)
  {
    CompareIsNaturalLess(a, b);
    CompareIsNaturalLess(b, a);
    if |a| > 0 && |b| > 0 {
      SegLessAsymmetric(Parse(a), Parse(b));
    }
  }

  lemma CompareTransitive(a: string, b: string, c: string)
    requires Compare(a, b) && Compare(b, c)
    ensures Compare(a, c)
  {
    CompareIsNaturalLess(a, b);
    CompareIsNaturalLess(b, c);
    CompareIsNaturalLess(a, c);
    if |a| > 0 {
      SegLessTransitive(Parse(a), Parse(b), Parse(c));
    }
  }

  /** Distinct strings are never tied: `"1"` and `"001"` have the same value
      but are still ordered. */
  lemma CompareTotal(a: string, b: string)
    ensures a == b || Compare(a, b) || Compare(b, a)
  {
    CompareIsNaturalLess(a, b);
    CompareIsNaturalLess(b, a);
    if |a| > 0 && |b| > 0 {
      SegLessTotal(Parse(a), Parse(b));
      if Parse(a) == Parse(b) {
        ParseInjective(a, b);
      }
    }
  }

  lemma CompareIsStrictTotalOrder()
    ensures forall a :: !Compare(a, a)
    ensures forall a, b :: Compare(a, b) ==> !Compare(b, a)
    ensures forall a, b, c :: Compare(a, b) && Compare(b, c) ==> Compare(a, c)
    ensures forall a, b :: a != b ==> Compare(a, b) || Compare(b, a)
  {
    forall a {
      CompareIrreflexive(a);
    }
    forall a, b
      ensures Compare(a, b) ==> !Compare(b, a)
    {
      CompareAsymmetric(a, b);
    }
    forall a, b | a != b
      ensures Compare(a, b) || Compare(b, a)
    {
      CompareTotal(a, b);
    }
    forall a, b, c | Compare(a, b) && Compare(b, c) {
      CompareTransitive(a, b, c);
    }
  }

  // The individual rules of `compare`, stated on whole strings.

  /** With no digit on either side, natural order is string order. */
  lemma NoDigitsIsStringOrder(a: string, b: string)
    requires NoDigits(a) && NoDigits(b)
    ensures Compare(a, b) <==> Less(a, b)
  {
    if |a| == 0 && |b| > 0 {
      assert Less(a, b);
    }
  }

  /** Digits are ASCII only: ARABIC-INDIC DIGIT THREE (U+0663) is an
      ordinary character here, so `a٣` compares as a string that extends
      `a`, and follows it. */
  lemma OtherDigitsAreNotDigits()
    ensures !Compare("a\U{0663}", "a") && Compare("a", "a\U{0663}")
  {
    NoDigitsIsStringOrder("a\U{0663}", "a");
    NoDigitsIsStringOrder("a", "a\U{0663}");
  }

  /** A non-empty string that still holds a digit precedes a non-empty one
      that holds none. */
  lemma DigitsBeforeNoDigits(a: string, b: string)
    requires |a| > 0 && !NoDigits(a)
    requires |b| > 0 && NoDigits(b)
    ensures Compare(a, b) && !Compare(b, a)
  {
  }

  /** Different non-digit prefixes before the first digit run decide by string
      order, whatever follows them. */
  lemma PrefixDecides(p1: string, s1: string, p2: string, s2: string)
    requires NoDigits(p1) && NoDigits(p2) && p1 != p2
    requires |s1| > 0 && IsDigit(s1[0]) && |s2| > 0 && IsDigit(s2[0])
    ensures Compare(p1 + s1, p2 + s2) <==> Less(p1, p2)
  {
    var a, b := p1 + s1, p2 + s2;
    assert a[|p1|] == s1[0] && a[..|p1|] == p1;
    assert b[|p2|] == s2[0] && b[..|p2|] == p2;
    assert IndexOfNumber(a) == |p1| && IndexOfNumber(b) == |p2|;
  }

  lemma WalkAtRun(p: string, d1: string, r1: string, d2: string, r2: string)
    requires NoDigits(p) && IsDigitRun(d1) && IsDigitRun(d2)
    requires StartsWithoutDigit(r1) && StartsWithoutDigit(r2)
    ensures Walk(p + d1 + r1, p + d2 + r2) == SegLess(Run(p, d1, Parse(r1)), Run(p, d2, Parse(r2)))
  {
    ParseRun(p, d1, r1);
    ParseRun(p, d2, r2);
    WalkIsSegLess(p + d1 + r1, p + d2 + r2);
  }

  lemma SegLessAtRun(p: string, d1: string, r1: string, d2: string, r2: string)
    requires NoDigits(p) && IsDigitRun(d1) && IsDigitRun(d2)
    requires StartsWithoutDigit(r1) && StartsWithoutDigit(r2)
    ensures var k1, k2 := Run(p, d1, Parse(r1)), Run(p, d2, Parse(r2));
      && (CoerceToInt(d1) != CoerceToInt(d2) ==> (SegLess(k1, k2) <==> CoerceToInt(d1) < CoerceToInt(d2)))
      && (CoerceToInt(d1) == CoerceToInt(d2) && |d1| != |d2| ==> (SegLess(k1, k2) <==> |d1| < |d2|))
      && (d1 == d2 ==> (SegLess(k1, k2) <==> Walk(r1, r2)))
  {
    WalkIsSegLess(r1, r2);
  }

  /** After a common prefix, two digit runs decide by value; equal values
      decide by run length, the shorter first; identical runs pass the
      decision on to what follows. This holds at every step of the walk, and
      so of `Compare` on the whole strings. */
  lemma RunDecides(p: string, d1: string, r1: string, d2: string, r2: string)
    requires NoDigits(p) && IsDigitRun(d1) && IsDigitRun(d2)
    requires StartsWithoutDigit(r1) && StartsWithoutDigit(r2)
    ensures var w, n1, n2 := Walk(p + d1 + r1, p + d2 + r2), CoerceToInt(d1), CoerceToInt(d2);
      && (n1 != n2 ==> (w <==> n1 < n2))
      && (n1 == n2 && |d1| != |d2| ==> (w <==> |d1| < |d2|))
      && (d1 == d2 ==> (w <==> Walk(r1, r2)))
  {
    WalkAtRun(p, d1, r1, d2, r2);
    SegLessAtRun(p, d1, r1, d2, r2);
  }

  /** After a common digit-free prefix, two final digit runs compare by
      value, and equal values by length, the shorter first. This holds at any
      step of the walk, and so of `Compare` on whole strings. */
  lemma WalkRunAfterPrefix(p: string, d1: string, d2: string)
    requires NoDigits(p) && IsDigitRun(d1) && IsDigitRun(d2)
    ensures var n1, n2 := CoerceToInt(d1), CoerceToInt(d2);
      Walk(p + d1, p + d2) <==> n1 < n2 || (n1 == n2 && |d1| < |d2|)
  {
    AppendEmpty(p + d1);
    AppendEmpty(p + d2);
    RunDecides(p, d1, "", d2, "");
    if CoerceToInt(d1) == CoerceToInt(d2) && |d1| == |d2| {
      CoerceToIntInjective(d1, d2);
      assert IndexOfNumber("") == -1 && !Less("", "");
      assert !Walk("", "");
    }
  }

  lemma RunAfterPrefix(p: string, d1: string, d2: string)
    requires NoDigits(p) && IsDigitRun(d1) && IsDigitRun(d2)
    ensures var n1, n2 := CoerceToInt(d1), CoerceToInt(d2);
      Compare(p + d1, p + d2) <==> n1 < n2 || (n1 == n2 && |d1| < |d2|)
  {
    WalkRunAfterPrefix(p, d1, d2);
  }

  /** Two strings that open with the same digit run compare as what follows
      the run, when that does not continue it. */
  lemma SameLeadingRun(d: string, f1: string, f2: string)
    requires IsDigitRun(d) && StartsWithoutDigit(f1) && StartsWithoutDigit(f2)
    ensures Compare(d + f1, d + f2) == Walk(f1, f2)
  {
    AppendEmpty(d);
    RunDecides("", d, f1, d, f2);
  }

  /** After a common prefix, a run padded with leading zeros follows its
      plain form, whatever comes after either: the values tie, and the
      shorter run goes first. */
  lemma PaddedRunFollows(p: string, z: string, d: string, r1: string, r2: string)
    requires NoDigits(p) && IsDigitRun(d) && |z| > 0 && AllZeros(z)
    requires StartsWithoutDigit(r1) && StartsWithoutDigit(r2)
    ensures Compare(p + d + r1, p + (z + d) + r2)
    ensures !Compare(p + (z + d) + r2, p + d + r1)
  {
    CoerceToIntLeadingZeros(z, d);
    RunDecides(p, d, r1, z + d, r2);
    RunDecides(p, z + d, r2, d, r1);
  }

  // `Sort`: `sort.Sort(slice(input))`, whose `Less(i, j)` is
  // `compare(s[i], s[j])`.

  /** No element is `Compare`-less than one placed before it. */
  predicate Sorted(s: seq<string>) {
    forall i, j | 0 <= i < j < |s| :: !Compare(s[j], s[i])
  }

  predicate IsSortOf(r: seq<string>, s: seq<string>) {
    Sorted(r) && multiset(r) == multiset(s)
  }

  /** Two sorted arrangements of one multiset start with the same element:
      either head preceding the other would put a smaller element after it. */
  lemma SortedHeadsEqual(s: seq<string>, t: seq<string>)
    requires Sorted(s) && Sorted(t) && multiset(s) == multiset(t) && |s| > 0
    ensures |t| > 0 && s[0] == t[0]
  {
    assert s[0] in multiset(t) && |t| > 0;
    assert t[0] in multiset(s);
    var m :| 0 <= m < |t| && t[m] == s[0];
    var n :| 0 <= n < |s| && s[n] == t[0];
    if s[0] != t[0] {
      CompareTotal(s[0], t[0]);
      assert false;
    }
  }

  /** A non-empty sequence is its head followed by the rest, as a sequence
      and as a multiset. */
  lemma HeadAndRest(s: seq<string>)
    requires |s| > 0
    ensures s == [s[0]] + s[1..]
    ensures multiset(s[1..]) == multiset(s) - multiset{s[0]}
  {
    assert s == [s[0]] + s[1..];
  }

  /** A sequence sorted under a strict total order is fixed by its elements:
      two sorted arrangements of the same multiset are equal. */
  lemma {:induction false} SortedUnique(s: seq<string>, t: seq<string>)
    requires Sorted(s) && Sorted(t) && multiset(s) == multiset(t)
    ensures s == t
    decreases |s|
  {
    if |s| == 0 {
      assert |t| == |multiset(t)| == 0;
    } else {
      SortedHeadsEqual(s, t);
      HeadAndRest(s);
      HeadAndRest(t);
      SortedUnique(s[1..], t[1..]);
    }
  }

  /** Along a chain in which no element precedes its neighbour, each element
      equals or precedes every later one. */
  lemma {:induction false} ChainOrdered(s: seq<string>, i: nat, j: nat)
    requires forall k | 0 < k < |s| :: !Compare(s[k], s[k - 1])
    requires i <= j < |s|
    ensures s[i] == s[j] || Compare(s[i], s[j])
    decreases j - i
  {
    if i < j {
      ChainOrdered(s, i, j - 1);
      CompareTotal(s[j - 1], s[j]);
      if s[i] != s[j - 1] && s[j - 1] != s[j] {
        CompareTransitive(s[i], s[j - 1], s[j]);
      }
    }
  }

  /** A sequence is sorted as soon as no element precedes its neighbour. */
  lemma ChainSorted(s: seq<string>)
    requires forall k | 0 < k < |s| :: !Compare(s[k], s[k - 1])
    ensures Sorted(s)
  {
    forall i, j | 0 <= i < j < |s|
      ensures !Compare(s[j], s[i])
    {
      ChainOrdered(s, i, j);
      CompareAsymmetric(s[i], s[j]);
      CompareIrreflexive(s[i]);
    }
  }

  /** Putting `x` in front of the first element it precedes keeps a sorted
      sequence sorted. */
  lemma InsertKeepsSorted(s: seq<string>, x: string, j: nat)
    requires Sorted(s) && j <= |s|
    requires forall k | 0 <= k < j :: !Compare(x, s[k])
    requires j < |s| ==> Compare(x, s[j])
    ensures Sorted(s[..j] + [x] + s[j..])
  {
    var t := s[..j] + [x] + s[j..];
    forall k | 0 < k < |t|
      ensures !Compare(t[k], t[k - 1])
    {
      if k < j {
        assert t[k] == s[k] && t[k - 1] == s[k - 1];
      } else if k == j {
        assert t[k] == x && t[k - 1] == s[k - 1];
      } else if k == j + 1 {
        assert t[k] == s[j] && t[k - 1] == x;
        CompareAsymmetric(x, s[j]);
      } else {
        assert t[k] == s[k - 1] && t[k - 1] == s[k - 2];
      }
    }
    ChainSorted(t);
  }

  /** `Sort`, by insertion: each element goes in front of the first element
      it precedes. Any correct sort gives the same result, since `Compare` is
      a strict total order. */
  method Sort(input: seq<string>) returns (output: seq<string>)
    ensures Sorted(output)
    ensures multiset(output) == multiset(input)
    ensures Sorted(input) ==> output == input
  {
    output := [];
    var i := 0;
    while i < |input|
      invariant 0 <= i <= |input|
      invariant Sorted(output)
      invariant multiset(output) == multiset(input[..i])
    {
      var x := input[i];
      var j := 0;
      while j < |output| && !Compare(x, output[j])
        invariant 0 <= j <= |output|
        invariant forall k | 0 <= k < j :: !Compare(x, output[k])
      {
        j := j + 1;
      }
      InsertKeepsSorted(output, x, j);
      assert output == output[..j] + output[j..];
      output := output[..j] + [x] + output[j..];
      assert input[..i + 1] == input[..i] + [x];
      i := i + 1;
    }
    assert input[..i] == input;
    if Sorted(input) {
      SortedUnique(output, input);
    }
  }
}

=== FILE: natural_table.dfy ===
/** The table of `TestSort` (pkg/natural/natural_test.go), restated: for each
    row, every sorted permutation of the input is the expected output. Since
    `Sort` returns a sorted permutation, it reproduces each row. */
module NaturalTable {
  import opened Strings
  import opened Digits
  import opened Natural

  /** A permutation of `input` whose consecutive elements never decrease is
      the only sorted permutation there is. */
  lemma ChainIsTheSort(r: seq<string>, input: seq<string>, e: seq<string>)
    requires IsSortOf(r, input) && multiset(input) == multiset(e)
    requires forall k | 0 < k < |e| :: e[k - 1] == e[k] || Compare(e[k - 1], e[k])
    ensures r == e
  {
    forall k | 0 < k < |e|
      ensures !Compare(e[k], e[k - 1])
    {
      CompareAsymmetric(e[k - 1], e[k]);
      CompareIrreflexive(e[k]);
    }
    ChainSorted(e);
    SortedUnique(r, e);
  }

  // Each comparison of two literals is proved on its own, from the rule
  // that decides it; the rows are assembled from them in small steps.

  lemma EmptyFirst()
    ensures Compare("", "a")
  {
  }

  lemma PrefixFirst()
    ensures Compare("a", "aac")
  {
    NoDigitsIsStringOrder("a", "aac");
  }

  lemma ThirdLetterOverLength()
    ensures Compare("aac", "ac")
  {
    NoDigitsIsStringOrder("aac", "ac");
  }

  lemma AaBeforeBb()
    ensures Compare("aa", "bb")
  {
    NoDigitsIsStringOrder("aa", "bb");
  }

  lemma BbBeforeCc()
    ensures Compare("bb", "cc")
  {
    NoDigitsIsStringOrder("bb", "cc");
  }

  lemma ElevenBeforeTwentyTwo()
    ensures Compare("11", "22")
  {
    assert IsDigitRun("11") && IsDigitRun("22");
    assert CoerceToInt("11") == 11 && CoerceToInt("22") == 22;
    AppendEmpty("11");
    AppendEmpty("22");
    RunAfterPrefix("", "11", "22");
  }

  lemma TwentyTwoBeforeThirtyThree()
    ensures Compare("22", "33")
  {
    assert IsDigitRun("22") && IsDigitRun("33");
    assert CoerceToInt("22") == 22 && CoerceToInt("33") == 33;
    AppendEmpty("22");
    AppendEmpty("33");
    RunAfterPrefix("", "22", "33");
  }

  lemma LetterBeforeNumber()
    ensures Compare("a2", "b11")
  {
    assert "a" + "2" == "a2" && "b" + "11" == "b11";
    PrefixDecides("a", "2", "b", "11");
  }

  lemma SmallerNumberFirst()
    ensures Compare("z2", "z11")
  {
    assert IsDigitRun("2") && IsDigitRun("11");
    assert CoerceToInt("2") == 2 && CoerceToInt("11") == 11;
    assert "z" + "2" == "z2" && "z" + "11" == "z11";
    RunAfterPrefix("z", "2", "11");
  }

  lemma A0BeforeA1()
    ensures Compare("a0", "a1")
  {
    assert IsDigitRun("0") && IsDigitRun("1");
    assert CoerceToInt("0") == 0 && CoerceToInt("1") == 1;
    assert "a" + "0" == "a0" && "a" + "1" == "a1";
    RunAfterPrefix("a", "0", "1");
  }

  lemma A1BeforeA2()
    ensures Compare("a1", "a2")
  {
    assert IsDigitRun("1") && IsDigitRun("2");
    assert CoerceToInt("1") == 1 && CoerceToInt("2") == 2;
    assert "a" + "1" == "a1" && "a" + "2" == "a2";
    RunAfterPrefix("a", "1", "2");
  }

  lemma A2BeforeA11()
    ensures Compare("a2", "a11")
  {
    assert IsDigitRun("2") && IsDigitRun("11");
    assert CoerceToInt("2") == 2 && CoerceToInt("11") == 11;
    assert "a" + "2" == "a2" && "a" + "11" == "a11";
    RunAfterPrefix("a", "2", "11");
  }

  lemma A11BeforeA13()
    ensures Compare("a11", "a13")
  {
    assert IsDigitRun("11") && IsDigitRun("13");
    assert CoerceToInt("11") == 11 && CoerceToInt("13") == 13;
    assert "a" + "11" == "a11" && "a" + "13" == "a13";
    RunAfterPrefix("a", "11", "13");
  }

  lemma A13BeforeA99()
    ensures Compare("a13", "a99")
  {
    assert IsDigitRun("13") && IsDigitRun("99");
    assert CoerceToInt("13") == 13 && CoerceToInt("99") == 99;
    assert "a" + "13" == "a13" && "a" + "99" == "a99";
    RunAfterPrefix("a", "13", "99");
  }

  lemma ZeroBeforePaddedZero()
    ensures Compare("0", "00")
  {
    assert IsDigitRun("0") && IsDigitRun("00");
    assert CoerceToInt("0") == 0 && CoerceToInt("00") == 0;
    AppendEmpty("0");
    AppendEmpty("00");
    RunAfterPrefix("", "0", "00");
  }

  lemma PaddedZeroBeforeOne()
    ensures Compare("00", "1")
  {
    assert IsDigitRun("00") && IsDigitRun("1");
    assert CoerceToInt("00") == 0 && CoerceToInt("1") == 1;
    AppendEmpty("00");
    AppendEmpty("1");
    RunAfterPrefix("", "00", "1");
  }

  lemma PaddedAfterUnpadded()
    ensures Compare("1", "001")
  {
    assert IsDigitRun("1") && IsDigitRun("001");
    assert CoerceToInt("1") == 1 && CoerceToInt("001") == 1;
    AppendEmpty("1");
    AppendEmpty("001");
    RunAfterPrefix("", "1", "001");
  }

  lemma PaddedOneBeforeTwo()
    ensures Compare("001", "2")
  {
    assert IsDigitRun("001") && IsDigitRun("2");
    assert CoerceToInt("001") == 1 && CoerceToInt("2") == 2;
    AppendEmpty("001");
    AppendEmpty("2");
    RunAfterPrefix("", "001", "2");
  }

  lemma TwoBeforeThree()
    ensures Compare("2", "3")
  {
    assert IsDigitRun("2") && IsDigitRun("3");
    assert CoerceToInt("2") == 2 && CoerceToInt("3") == 3;
    AppendEmpty("2");
    AppendEmpty("3");
    RunAfterPrefix("", "2", "3");
  }

  lemma ThreeBeforeTwentyTwo()
    ensures Compare("3", "22")
  {
    assert IsDigitRun("3") && IsDigitRun("22");
    assert CoerceToInt("3") == 3 && CoerceToInt("22") == 22;
    AppendEmpty("3");
    AppendEmpty("22");
    RunAfterPrefix("", "3", "22");
  }

  lemma TwentyTwoBeforeThirty()
    ensures Compare("22", "30")
  {
    assert IsDigitRun("22") && IsDigitRun("30");
    assert CoerceToInt("22") == 22 && CoerceToInt("30") == 30;
    AppendEmpty("22");
    AppendEmpty("30");
    RunAfterPrefix("", "22", "30");
  }

  lemma GlyphBeforeGlyph()
    ensures Compare("世20", "世界3")
  {
    assert "世" + "20" == "世20" && "世界" + "3" == "世界3";
    PrefixDecides("世", "20", "世界", "3");
  }

  /** A five-character decimal literal is its integer part, the point and
      its fraction. */
  lemma DecimalSpelling(s: string, whole: string, point: string, fraction: string)
    requires |whole| == 1 && |point| == 1 && |fraction| == 3 && |s| == 5
    requires s[0] == whole[0] && s[1] == point[0]
    requires s[2] == fraction[0] && s[3] == fraction[1] && s[4] == fraction[2]
    ensures s == whole + (point + fraction)
  {
  }

  /** `1.001` before `1.002`, with the strings still in pieces: the integer
      parts tie, and the fractions decide. */
  lemma DecimalFirstStepInPieces()
    ensures Compare("1" + ("." + "001"), "1" + ("." + "002"))
  {
    assert IsDigitRun("001") && IsDigitRun("002");
    assert CoerceToInt("001") == 1 && CoerceToInt("002") == 2;
    WalkRunAfterPrefix(".", "001", "002");
    SameLeadingRun("1", "." + "001", "." + "002");
  }

  lemma DecimalFirstStep()
    ensures Compare("1.001", "1.002")
  {
    DecimalSpelling("1.001", "1", ".", "001");
    DecimalSpelling("1.002", "1", ".", "002");
    DecimalFirstStepSpelled("1.001", "1.002");
  }

  /** The comparison in pieces, moved onto whole literals that equal the
      pieces. Kept apart from `DecimalFirstStep` so that no proof unfolds
      literal concatenations and literal comparisons together. */
  lemma DecimalFirstStepSpelled(a: string, b: string)
    requires a == "1" + ("." + "001") && b == "1" + ("." + "002")
    ensures Compare(a, b)
  {
    DecimalFirstStepInPieces();
  }

  /** `1.002` before `1.003`, with the strings still in pieces: the integer
      parts tie, and the fractions decide. */
  lemma DecimalSecondStepInPieces()
    ensures Compare("1" + ("." + "002"), "1" + ("." + "003"))
  {
    assert IsDigitRun("002") && IsDigitRun("003");
    assert CoerceToInt("002") == 2 && CoerceToInt("003") == 3;
    WalkRunAfterPrefix(".", "002", "003");
    SameLeadingRun("1", "." + "002", "." + "003");
  }

  lemma DecimalSecondStep()
    ensures Compare("1.002", "1.003")
  {
    DecimalSpelling("1.002", "1", ".", "002");
    DecimalSpelling("1.003", "1", ".", "003");
    DecimalSecondStepSpelled("1.002", "1.003");
  }

  lemma DecimalSecondStepSpelled(a: string, b: string)
    requires a == "1" + ("." + "002") && b == "1" + ("." + "003")
    ensures Compare(a, b)
  {
    DecimalSecondStepInPieces();
  }

  const EmptyRightOrderInput: seq<string> := ["", "a"]
  const EmptyRightOrderOutput: seq<string> := ["", "a"]

  lemma EmptyRightOrderSteps()
    ensures forall k | 0 < k < 2 :: Compare(EmptyRightOrderOutput[k - 1], EmptyRightOrderOutput[k])
  {
    EmptyFirst();
  }

  lemma EmptyRightOrderPermutation()
    ensures multiset(EmptyRightOrderInput) == multiset(EmptyRightOrderOutput)
  {}

  lemma EmptyRightOrder(r: seq<string>)
    requires IsSortOf(r, EmptyRightOrderInput)
    ensures r == EmptyRightOrderOutput
  {
    EmptyRightOrderSteps();
    EmptyRightOrderPermutation();
    ChainIsTheSort(r, EmptyRightOrderInput, EmptyRightOrderOutput);
  }

  const EmptyLeftOrderInput: seq<string> := ["a", ""]
  const EmptyLeftOrderOutput: seq<string> := ["", "a"]

  lemma EmptyLeftOrderSteps()
    ensures forall k | 0 < k < 2 :: Compare(EmptyLeftOrderOutput[k - 1], EmptyLeftOrderOutput[k])
  {
    EmptyFirst();
  }

  lemma EmptyLeftOrderPermutation()
    ensures multiset(EmptyLeftOrderInput) == multiset(EmptyLeftOrderOutput)
  {}

  lemma EmptyLeftOrder(r: seq<string>)
    requires IsSortOf(r, EmptyLeftOrderInput)
    ensures r == EmptyLeftOrderOutput
  {
    EmptyLeftOrderSteps();
    EmptyLeftOrderPermutation();
    ChainIsTheSort(r, EmptyLeftOrderInput, EmptyLeftOrderOutput);
  }

  const DifferingLengthsInput: seq<string> := ["aac", "ac", "a"]
  const DifferingLengthsOutput: seq<string> := ["a", "aac", "ac"]

  lemma DifferingLengthsSteps()
    ensures forall k | 0 < k < 3 :: Compare(DifferingLengthsOutput[k - 1], DifferingLengthsOutput[k])
  {
    PrefixFirst();
    ThirdLetterOverLength();
  }

  lemma DifferingLengthsPermutation()
    ensures multiset(DifferingLengthsInput) == multiset(DifferingLengthsOutput)
  {}

  lemma DifferingLengths(r: seq<string>)
    requires IsSortOf(r, DifferingLengthsInput)
    ensures r == DifferingLengthsOutput
  {
    DifferingLengthsSteps();
    DifferingLengthsPermutation();
    ChainIsTheSort(r, DifferingLengthsInput, DifferingLengthsOutput);
  }

  const SimilarLengthsInput: seq<string> := ["aa", "cc", "bb"]
  const SimilarLengthsOutput: seq<string> := ["aa", "bb", "cc"]

  lemma SimilarLengthsSteps()
    ensures forall k | 0 < k < 3 :: Compare(SimilarLengthsOutput[k - 1], SimilarLengthsOutput[k])
  {
    AaBeforeBb();
    BbBeforeCc();
  }

  lemma SimilarLengthsPermutation()
    ensures multiset(SimilarLengthsInput) == multiset(SimilarLengthsOutput)
  {}

  lemma SimilarLengths(r: seq<string>)
    requires IsSortOf(r, SimilarLengthsInput)
    ensures r == SimilarLengthsOutput
  {
    SimilarLengthsSteps();
    SimilarLengthsPermutation();
    ChainIsTheSort(r, SimilarLengthsInput, SimilarLengthsOutput);
  }

  const SimilarDigitLengthsInput: seq<string> := ["11", "33", "22"]
  const SimilarDigitLengthsOutput: seq<string> := ["11", "22", "33"]

  lemma SimilarDigitLengthsSteps()
    ensures forall k | 0 < k < 3 :: Compare(SimilarDigitLengthsOutput[k - 1], SimilarDigitLengthsOutput[k])
  {
    ElevenBeforeTwentyTwo();
    TwentyTwoBeforeThirtyThree();
  }

  lemma SimilarDigitLengthsPermutation()
    ensures multiset(SimilarDigitLengthsInput) == multiset(SimilarDigitLengthsOutput)
  {}

  lemma SimilarDigitLengths(r: seq<string>)
    requires IsSortOf(r, SimilarDigitLengthsInput)
    ensures r == SimilarDigitLengthsOutput
  {
    SimilarDigitLengthsSteps();
    SimilarDigitLengthsPermutation();
    ChainIsTheSort(r, SimilarDigitLengthsInput, SimilarDigitLengthsOutput);
  }

  const DigitOrderInput: seq<string> := ["b11", "a2"]
  const DigitOrderOutput: seq<string> := ["a2", "b11"]

  lemma DigitOrderSteps()
    ensures forall k | 0 < k < 2 :: Compare(DigitOrderOutput[k - 1], DigitOrderOutput[k])
  {
    LetterBeforeNumber();
  }

  lemma DigitOrderPermutation()
    ensures multiset(DigitOrderInput) == multiset(DigitOrderOutput)
  {}

  lemma DigitOrder(r: seq<string>)
    requires IsSortOf(r, DigitOrderInput)
    ensures r == DigitOrderOutput
  {
    DigitOrderSteps();
    DigitOrderPermutation();
    ChainIsTheSort(r, DigitOrderInput, DigitOrderOutput);
  }

  const HumanDigitOrderInput: seq<string> := ["z11", "z2"]
  const HumanDigitOrderOutput: seq<string> := ["z2", "z11"]

  lemma HumanDigitOrderSteps()
    ensures forall k | 0 < k < 2 :: Compare(HumanDigitOrderOutput[k - 1], HumanDigitOrderOutput[k])
  {
    SmallerNumberFirst();
  }

  lemma HumanDigitOrderPermutation()
    ensures multiset(HumanDigitOrderInput) == multiset(HumanDigitOrderOutput)
  {}

  lemma HumanDigitOrder(r: seq<string>)
    requires IsSortOf(r, HumanDigitOrderInput)
    ensures r == HumanDigitOrderOutput
  {
    HumanDigitOrderSteps();
    HumanDigitOrderPermutation();
    ChainIsTheSort(r, HumanDigitOrderInput, HumanDigitOrderOutput);
  }

  const AlphaNumericInput: seq<string> := ["a1", "a0", "a13", "a11", "a99", "a11", "a2"]
  const AlphaNumericOutput: seq<string> := ["a0", "a1", "a2", "a11", "a11", "a13", "a99"]

  lemma AlphaNumericSteps1()
    ensures forall k | 0 < k < 3 :: Compare(AlphaNumericOutput[k - 1], AlphaNumericOutput[k])
  {
    A0BeforeA1();
    A1BeforeA2();
  }

  lemma AlphaNumericSteps2()
    ensures forall k | 3 <= k < 5 :: AlphaNumericOutput[k - 1] == AlphaNumericOutput[k] || Compare(AlphaNumericOutput[k - 1], AlphaNumericOutput[k])
  {
    A2BeforeA11();
  }

  lemma AlphaNumericSteps3()
    ensures forall k | 5 <= k < 7 :: Compare(AlphaNumericOutput[k - 1], AlphaNumericOutput[k])
  {
    A11BeforeA13();
    A13BeforeA99();
  }

  lemma AlphaNumericPermutation()
    ensures multiset(AlphaNumericInput) == multiset(AlphaNumericOutput)
  {}

  lemma AlphaNumeric(r: seq<string>)
    requires IsSortOf(r, AlphaNumericInput)
    ensures r == AlphaNumericOutput
  {
    AlphaNumericSteps1();
    AlphaNumericSteps2();
    AlphaNumericSteps3();
    AlphaNumericPermutation();
    ChainIsTheSort(r, AlphaNumericInput, AlphaNumericOutput);
  }

  const NumericInput: seq<string> := ["001", "2", "30", "22", "0", "00", "3", "1"]
  const NumericOutput: seq<string> := ["0", "00", "1", "001", "2", "3", "22", "30"]

  lemma NumericSteps1()
    ensures forall k | 0 < k < 3 :: Compare(NumericOutput[k - 1], NumericOutput[k])
  {
    ZeroBeforePaddedZero();
    PaddedZeroBeforeOne();
  }

  lemma NumericSteps2()
    ensures forall k | 3 <= k < 5 :: Compare(NumericOutput[k - 1], NumericOutput[k])
  {
    PaddedAfterUnpadded();
    PaddedOneBeforeTwo();
  }

  lemma NumericSteps3()
    ensures forall k | 5 <= k < 7 :: Compare(NumericOutput[k - 1], NumericOutput[k])
  {
    TwoBeforeThree();
    ThreeBeforeTwentyTwo();
  }

  lemma NumericSteps4()
    ensures forall k | 7 <= k < 8 :: Compare(NumericOutput[k - 1], NumericOutput[k])
  {
    TwentyTwoBeforeThirty();
  }

  lemma NumericPermutation()
    ensures multiset(NumericInput) == multiset(NumericOutput)
  {}

  lemma Numeric(r: seq<string>)
    requires IsSortOf(r, NumericInput)
    ensures r == NumericOutput
  {
    NumericSteps1();
    NumericSteps2();
    NumericSteps3();
    NumericSteps4();
    NumericPermutation();
    ChainIsTheSort(r, NumericInput, NumericOutput);
  }

  const GlyphsInput: seq<string> := ["世界3", "世20"]
  const GlyphsOutput: seq<string> := ["世20", "世界3"]

  lemma GlyphsSteps()
    ensures forall k | 0 < k < 2 :: Compare(GlyphsOutput[k - 1], GlyphsOutput[k])
  {
    GlyphBeforeGlyph();
  }

  lemma GlyphsPermutation()
    ensures multiset(GlyphsInput) == multiset(GlyphsOutput)
  {}

  lemma Glyphs(r: seq<string>)
    requires IsSortOf(r, GlyphsInput)
    ensures r == GlyphsOutput
  {
    GlyphsSteps();
    GlyphsPermutation();
    ChainIsTheSort(r, GlyphsInput, GlyphsOutput);
  }

  const NumericPaddingInput: seq<string> := ["001", "1"]
  const NumericPaddingOutput: seq<string> := ["1", "001"]

  lemma NumericPaddingSteps()
    ensures forall k | 0 < k < 2 :: Compare(NumericPaddingOutput[k - 1], NumericPaddingOutput[k])
  {
    PaddedAfterUnpadded();
  }

  lemma NumericPaddingPermutation()
    ensures multiset(NumericPaddingInput) == multiset(NumericPaddingOutput)
  {}

  lemma NumericPadding(r: seq<string>)
    requires IsSortOf(r, NumericPaddingInput)
    ensures r == NumericPaddingOutput
  {
    NumericPaddingSteps();
    NumericPaddingPermutation();
    ChainIsTheSort(r, NumericPaddingInput, NumericPaddingOutput);
  }

  const DecimalInput: seq<string> := ["1.002", "1.001", "1.003"]
  const DecimalOutput: seq<string> := ["1.001", "1.002", "1.003"]

  lemma DecimalSteps()
    ensures forall k | 0 < k < 3 :: Compare(DecimalOutput[k - 1], DecimalOutput[k])
  {
    DecimalFirstStep();
    DecimalSecondStep();
  }

  lemma DecimalPermutation()
    ensures multiset(DecimalInput) == multiset(DecimalOutput)
  {}

  lemma Decimal(r: seq<string>)
    requires IsSortOf(r, DecimalInput)
    ensures r == DecimalOutput
  {
    DecimalSteps();
    DecimalPermutation();
    ChainIsTheSort(r, DecimalInput, DecimalOutput);
  }
}

=== FILE: segments.dfy ===
/** A string read as the comparator reads it: alternating non-digit segments
    and maximal digit runs, ending in a digit-free tail. The comparator never
    builds this structure; it is the reference against which its walk over
    suffixes is judged. */
module Segments {
  import opened Strings
  import opened Digits

  /** `Run(prefix, digits, rest)` is `prefix`, then the digit run `digits`,
      then whatever `rest` spells; `Tail(text)` is the digit-free end. */
  datatype Segmented =
    | Tail(text: string)
    | Run(prefix: string, digits: string, rest: Segmented)

  function Flatten(k: Segmented): (s: string) {
    match k
    case Tail(t) => t
    case Run(p, d, r) => p + d + Flatten(r)
  }

  predicate StartsWithoutDigit(s: string) {
    |s| == 0 || !IsDigit(s[0])
  }

  /** Prefixes and tails hold no digit, runs are non-empty and maximal: a run
      is never followed directly by another digit. */
  predicate WellFormed(k: Segmented) {
    match k
    case Tail(t) => NoDigits(t)
    case Run(p, d, r) =>
      NoDigits(p) && IsDigitRun(d) && StartsWithoutDigit(Flatten(r)) && WellFormed(r)
  }

  /** The digit run at the head of `t`, `j` digits long, after the prefix
      `p`, followed by a segmentation of the rest of `t`, segments `p + t`. */
  lemma RunAt(p: string, t: string, j: nat, rest: Segmented)
    requires NoDigits(p) && 1 <= j <= |t| && IsDigitRun(t[..j])
    requires j == |t| || !IsDigit(t[j])
    requires WellFormed(rest) && Flatten(rest) == t[j..]
    ensures WellFormed(Run(p, t[..j], rest))
    ensures Flatten(Run(p, t[..j], rest)) == p + t
  {
    assert |t[j..]| > 0 ==> t[j..][0] == t[j];
    Rejoin(t, j);
  }

  /** Splits a string into its segments, by the same steps the comparator
      takes: skip to the next digit, then to the end of that digit run. */
  function Parse(s: string): (k: Segmented)
    ensures WellFormed(k)
    ensures Flatten(k) == s
    decreases |s|
  {
    var i := IndexOfNumber(s);
    if i == -1 then Tail(s)
    else
      var t := s[i..];
      var j := DigitRunEnd(t);
      var rest := Parse(t[j..]);
      RunAt(s[..i], t, j, rest);
      Rejoin(s, i);
      Run(s[..i], t[..j], rest)
  }

  /** A string has exactly one well-formed segmentation: `Parse` finds it. */
  lemma {:induction false} ParseFlatten(k: Segmented)
    requires WellFormed(k)
    ensures Parse(Flatten(k)) == k
  {
    match k
    case Tail(t) =>
    case Run(p, d, r) =>
      var s := Flatten(k);
      var i := IndexOfNumber(s);
      assert s[|p|] == d[0];
      assert s[..|p|] == p;
      assert i == |p|;
      var t := s[i..];
      assert t == d + Flatten(r);
      var j := DigitRunEnd(t);
      assert forall m | 0 <= m < |d| :: t[m] == d[m];
      assert |d| < |t| ==> t[|d|] == Flatten(r)[0];
      assert j == |d|;
      assert t[..j] == d;
      assert t[j..] == Flatten(r);
      ParseFlatten(r);
  }

  /** A non-digit prefix, a digit run and a remainder that does not continue
      the run are the first segment of their concatenation. */
  lemma ParseRun(p: string, d: string, r: string)
    requires NoDigits(p) && IsDigitRun(d) && StartsWithoutDigit(r)
    ensures Parse(p + d + r) == Run(p, d, Parse(r))
  {
    ParseFlatten(Run(p, d, Parse(r)));
  }

  lemma ParseInjective(a: string, b: string)
    requires Parse(a) == Parse(b)
    ensures a == b
  {
    assert a == Flatten(Parse(a)) && b == Flatten(Parse(b));
  }

  /** The natural order on segmentations: a run before a tail; two tails by
      string order; two runs by prefix, then numeric value, then run length
      (the shorter run first), then the rest. */
  predicate SegLess(k1: Segmented, k2: Segmented)
    requires WellFormed(k1) && WellFormed(k2)
  {
    match (k1, k2)
    case (Tail(t1), Tail(t2)) => Less(t1, t2)
    case (Tail(_), Run(_, _, _)) => false
    case (Run(_, _, _), Tail(_)) => true
    case (Run(p1, d1, r1), Run(p2, d2, r2)) =>
      if p1 != p2 then Less(p1, p2)
      else if CoerceToInt(d1) != CoerceToInt(d2) then CoerceToInt(d1) < CoerceToInt(d2)
      else if |d1| != |d2| then |d1| < |d2|
      else SegLess(r1, r2)
  }

  lemma {:induction false} SegLessAsymmetric(k1: Segmented, k2: Segmented)
    requires WellFormed(k1) && WellFormed(k2)
    ensures SegLess(k1, k2) ==> !SegLess(k2, k1)
  {
    match (k1, k2)
    case (Tail(t1), Tail(t2)) => LessAsymmetric(t1, t2);
    case (Tail(_), Run(_, _, _)) =>
    case (Run(_, _, _), Tail(_)) =>
    case (Run(p1, d1, r1), Run(p2, d2, r2)) =>
      LessAsymmetric(p1, p2);
      SegLessAsymmetric(r1, r2);
  }

  lemma SegLessIrreflexive(k: Segmented)
    requires WellFormed(k)
    ensures !SegLess(k, k)
  {
    SegLessAsymmetric(k, k);
  }

  lemma {:induction false} SegLessTransitive(k1: Segmented, k2: Segmented, k3: Segmented)
    requires WellFormed(k1) && WellFormed(k2) && WellFormed(k3)
    requires SegLess(k1, k2) && SegLess(k2, k3)
    ensures SegLess(k1, k3)
  {
    match (k1, k2, k3)
    case (Tail(t1), Tail(t2), Tail(t3)) => LessTransitive(t1, t2, t3);
    case (Run(p1, d1, r1), Run(p2, d2, r2), Run(p3, d3, r3)) =>
      if p1 != p2 && p2 != p3 {
        LessTransitive(p1, p2, p3);
        LessIrreflexive(p1);
      } else if p1 == p2 && p2 == p3 {
        if CoerceToInt(d1) == CoerceToInt(d2) == CoerceToInt(d3) && |d1| == |d2| == |d3| {
          SegLessTransitive(r1, r2, r3);
        }
      }
    case (Run(_, _, _), _, Tail(_)) =>
  }

  lemma {:induction false} SegLessTotal(k1: Segmented, k2: Segmented)
    requires WellFormed(k1) && WellFormed(k2)
    ensures k1 == k2 || SegLess(k1, k2) || SegLess(k2, k1)
  {
    match (k1, k2)
    case (Tail(t1), Tail(t2)) => LessTotal(t1, t2);
    case (Tail(_), Run(_, _, _)) =>
    case (Run(_, _, _), Tail(_)) =>
    case (Run(p1, d1, r1), Run(p2, d2, r2)) =>
      if p1 != p2 {
        LessTotal(p1, p2);
      } else if CoerceToInt(d1) == CoerceToInt(d2) && |d1| == |d2| {
        CoerceToIntInjective(d1, d2);
        SegLessTotal(r1, r2);
      }
  }
}

=== FILE: strings.dfy ===
/** The pieces of Go's `strings` package, and of its built-in string order,
    that the comparator and the command rely on. A Go string is modelled as a
    `seq<char>`; the order of code points agrees with the byte order of their
    UTF-8 encodings, so `Less` is Go's `x < y`. */
module Strings {

  /** `strings.IndexFunc`: the position of the first character satisfying `f`,
      or -1 when there is none. */
  function IndexFunc(s: string, f: char -> bool): (r: int)
    ensures -1 <= r < |s|
    ensures r == -1 <==> forall i | 0 <= i < |s| :: !f(s[i])
    ensures 0 <= r ==> f(s[r]) && forall i | 0 <= i < r :: !f(s[i])
    decreases |s|
  {
    if |s| == 0 then -1
    else if f(s[0]) then 0
    else
      var k := IndexFunc(s[1..], f);
      if k == -1 then -1 else k + 1
  }

  /** The first-occurrence loop of `splitOn`'s split function, which
      computes what `bytes.IndexByte` would: the position of the first
      occurrence of `c`, or -1 when there is none. */
  function IndexByte(s: string, c: char): (r: int)
    ensures -1 <= r < |s|
    ensures r == -1 <==> c !in s
    ensures 0 <= r ==> s[r] == c && c !in s[..r]
    decreases |s|
  {
    if |s| == 0 then -1
    else if s[0] == c then 0
    else
      var k := IndexByte(s[1..], c);
      assert s == [s[0]] + s[1..];
      if k == -1 then -1
      else
        assert s[..k + 1] == [s[0]] + s[1..][..k];
        k + 1
  }

  /** Go's `x < y` on strings: lexicographic order, a proper prefix first. */
  predicate Less(x: string, y: string)
    decreases |x|
  {
    if |x| == 0 then |y| > 0
    else if |y| == 0 then false
    else if x[0] != y[0] then x[0] < y[0]
    else Less(x[1..], y[1..])
  }

  /** The usual textbook definition of lexicographic order: `x` is a proper
      prefix of `y`, or the first position where they differ has the smaller
      character in `x`. */
  ghost predicate FirstDifferenceLess(x: string, y: string) {
    || (|x| < |y| && x == y[..|x|])
    || exists k | 0 <= k < |x| && k < |y| :: x[..k] == y[..k] && x[k] < y[k]
  }

  lemma {:induction false} LessIsFirstDifference(x: string, y: string)
    ensures Less(x, y) <==> FirstDifferenceLess(x, y)
    decreases |x|
  {
    if |x| == 0 || |y| == 0 {
    } else if x[0] != y[0] {
      if x[0] < y[0] {
        assert x[..0] == y[..0];
      }
    } else {
      LessIsFirstDifference(x[1..], y[1..]);
      if FirstDifferenceLess(x[1..], y[1..]) {
        if |x[1..]| < |y[1..]| && x[1..] == y[1..][..|x[1..]|] {
          assert x == [x[0]] + x[1..];
          assert y[..|x|] == [y[0]] + y[1..][..|x[1..]|];
        } else {
          var k :| 0 <= k < |x[1..]| && k < |y[1..]| && x[1..][..k] == y[1..][..k] && x[1..][k] < y[1..][k];
          assert x[..k + 1] == [x[0]] + x[1..][..k];
          assert y[..k + 1] == [y[0]] + y[1..][..k];
        }
      }
      if FirstDifferenceLess(x, y) {
        if |x| < |y| && x == y[..|x|] {
          assert x[1..] == y[1..][..|x[1..]|];
        } else {
          var k :| 0 <= k < |x| && k < |y| && x[..k] == y[..k] && x[k] < y[k];
          assert k > 0;
          assert x[1..][..k - 1] == x[..k][1..];
          assert y[1..][..k - 1] == y[..k][1..];
          assert x[1..][k - 1] < y[1..][k - 1];
        }
      }
    }
  }

  lemma {:induction false} LessIrreflexive(x: string)
    ensures !Less(x, x)
    decreases |x|
  {
    if |x| > 0 {
      LessIrreflexive(x[1..]);
    }
  }

  lemma {:induction false} LessAsymmetric(x: string, y: string)
    ensures Less(x, y) ==> !Less(y, x)
    decreases |x|
  {
    if |x| > 0 && |y| > 0 && x[0] == y[0] {
      LessAsymmetric(x[1..], y[1..]);
    }
  }

  lemma {:induction false} LessTransitive(x: string, y: string, z: string)
    requires Less(x, y) && Less(y, z)
    ensures Less(x, z)
    decreases |x|
  {
    if |x| > 0 && x[0] == y[0] && y[0] == z[0] {
      LessTransitive(x[1..], y[1..], z[1..]);
    }
  }

  lemma {:induction false} LessTotal(x: string, y: string)
    ensures x == y || Less(x, y) || Less(y, x)
    decreases |x|
  {
    if |x| > 0 && |y| > 0 && x[0] == y[0] {
      LessTotal(x[1..], y[1..]);
      if x[1..] == y[1..] {
        assert x == [x[0]] + x[1..] && y == [y[0]] + y[1..];
      }
    }
  }

  /** A string is its prefix and suffix at any cut point. Stated apart, where
      no other sequence facts are in scope, because it is expensive to find
      by extensionality inside a larger proof. */
  lemma Rejoin(s: string, i: nat)
    requires i <= |s|
    ensures s[..i] + s[i..] == s
  {
  }

  /** The empty string is a unit of concatenation; stated apart for the same
      reason. */
  lemma AppendEmpty(s: string)
    ensures "" + s == s && s + "" == s
  {
  }

  /** `strings.Join`: the elements with `sep` between consecutive ones. */
  function Join(sep: string, elems: seq<string>): (s: string)
    decreases |elems|
  {
    if |elems| == 0 then ""
    else if |elems| == 1 then elems[0]
    else elems[0] + sep + Join(sep, elems[1..])
  }

  /** `strings.TrimRightFunc`: drops the longest suffix whose characters all
      satisfy `f`. */
  function TrimRightFunc(s: string, f: char -> bool): (r: string)
    ensures r <= s
    ensures forall i | |r| <= i < |s| :: f(s[i])
    ensures |r| == 0 || !f(r[|r| - 1])
    decreases |s|
  {
    if |s| > 0 && f(s[|s| - 1]) then TrimRightFunc(s[..|s| - 1], f) else s
  }
}
